=== FILE: README.md ===
# AT command engine

A model in Dafny of the AT command engine of the ATM33xx SDK (`ATM33xx-5/lib/at_cmd`). The
engine has two parts.

**The parameter parser** (`at_cmd_pasr.c`, `at_cmd_pasr.h`):
- A command's format string, such as `"B(0~1),A(6~6),S"`, is compiled token by token into
  empty TLVs. Each TLV carries a kind (i8, u8, i16, u16, i32, u32, byte array, string) and the
  bounds its values must meet.
- The received arguments are split at their commas and each field is decoded into the next
  TLV: decimal for the numbers, hexadecimal pairs for the byte array, raw characters for the
  string.
- The decoded TLVs are kept in a store of at most ten entries, which is busy until it is
  cleared.

**The command core** (`at_cmd.c`, `at_cmd.h`):
- A received text passes through its channel's transport (the UART transport strips the
  `AT+` header).
- The name it starts with is looked up by binary search in the name-sorted command table.
- The text after the name selects one of four forms: the bare name, the query `NAME?`, the
  test `NAME=?`, or an execution.
- For an execution, the arguments are validated against the command's format and checked
  against its parameter count, the handler is called, and a status line is reported.
- Responses are assembled in a buffer of 257 characters from an optional `\r\n` prefix, the
  payload and an optional `\r\n` postfix. The reported length is clamped to 256.
- Built in are `LISTCMDS` (lists the commands) and `DEBUG` (sets the debug flag).

Module layout, one file each:

| module | what it holds |
|---|---|
| `Wrappers` | `Option` |
| `Text` | strchr, and splitting at commas |
| `Decimal` | strtol, strtoul, atoi and the printf renderings the engine uses |
| `PasrTypes` | the parser's status codes, kinds, kind table and TLV |
| `PasrFormat` | the format compiler (`at_pasr_dt_identify`) |
| `PasrDecode` | the field decoders |
| `PasrStore` | validation and the `ParamStore` class |
| `CmdTypes` | the command core's enums, records and constants |
| `Framer` | prefix/postfix writers, `at_cmd_resp_concat`, `at_cmd_resp_array` |
| `Registry` | name order and the binary search |
| `Dispatch` | status lines, argument check, handler call, classification, and the `Dispatcher` class |
| `ProcLemmas` | end-to-end properties of `at_cmd_proc` |

The file-level state of the C code becomes objects:
- `at_cmd_param[]` and `at_cmd_param_cnt` become `PasrStore.ParamStore`.
- `at_ctx[]` and `at_cmd_dbg` become fields of `Dispatch.Dispatcher`.
- The response handlers are modelled as a trace of `(channel, frame)` pairs that the
  dispatcher appends to.

Every imperative routine is a method proved against a function that specifies it:
- `Validate` against `ValidateSpec`;
- `IsAvailable` against `Resolve`;
- `RespConcat` against `ConcatFrame`;
- `CheckArgs` against `ArgsVerdict`;
- `Proc` against `Process`.

The properties of the engine are lemmas about those functions.

Where the header's documentation and the code disagree, the model follows the code:
- A bare `S` allows 0 to 0xFFF octets (the `dt_ctx` table), not 0 to 255.
- `DEBUG=2` is answered `ERR:5`, because the argument check reports WRONG_ARGU_TYPE_OR_RANGE
  for a value out of range.
- The empty input against an empty format validates to MORE_DATA, because the input pointer
  is never advanced.
- A bare `A` allows 0 to 0xFF bytes (the `dt_ctx` table), not any length.
- `S(3~)` allows up to 0xFFF octets, the string default, not up to 255.
- The default minimum of `d`, and so of `d(~1000)`, is INT_MIN, −2147483648, not −2147483647.
- A bound written above 2147483647 is read by atoi and saturates, so `D(0~4294967295)` compiles
  to the maximum 2147483647; the default maximum of a bare `D` is 4294967295.
- The u32 decoder reads with strtoul, which negates a minus-signed number, so a bare `D` accepts
  `-1` as 4294967295.
- The range check of the u8, u16 and i8/i16 decoders applies to the value after it is
  narrowed to the field, so `B(0~1)` accepts `257` as 1.

## Model

| member | source | states |
|---|---|---|
| PasrTypes.Narrow | ATM33xx-5/lib/at_cmd/at_cmd_pasr.h:141-206 | the C conversion to a kind's field: the result lies within the field's range, is congruent to the value modulo 2^width (two's complement for the signed kinds, so 200 becomes −56 in an i8), is unchanged when the value already fits, and is the remainder modulo 2^width for the unsigned kinds |
| PasrTypes.ToUint32 | ATM33xx-5/lib/at_cmd/at_cmd_pasr.c:314-315 | an int32 stored through a `uint32_t` lies in 0..0xFFFFFFFF and is congruent to it modulo 2^32 |
| PasrTypes.GetParam | ATM33xx-5/lib/at_cmd/at_cmd_pasr.h:98-101 | AT_PASR_GET_PARAM may only be used when the stored kind is the requested one, and of a well-formed argument it reads the union member of that type: a number within the kind's field, or as many bytes or characters as the length says |
| PasrTypes.LenCheck | ATM33xx-5/lib/at_cmd/at_cmd_pasr.h:85-87 | AT_PASR_GET_PARAM_LEN_CHECK compares argument i's recorded length with the given length; LenCheckArray and LenCheckString tie that length to what was received |
| PasrTypes.LetterTable | ATM33xx-5/lib/at_cmd/at_cmd_pasr.c:43-53 | the keyword letters `bBwWdDAS` map to the kinds 0..7 in order, and no other letter names a kind |
| PasrTypes.DefaultsFitFields | ATM33xx-5/lib/at_cmd/at_cmd_pasr.c:54-73 | each kind's default bounds fit its TLV fields unchanged, with min ≤ max |
| CmdTypes.FlagBits | ATM33xx-5/lib/at_cmd/at_cmd.h:118-127 | at_prefix = 1, at_data = 2, at_postfix = 4 and at_all = 7, and a flag is recovered from its bits |
| CmdTypes.LowBits | ATM33xx-5/lib/at_cmd/at_cmd.h:118-127 | of an integer flag only the three low bits select the parts |
| Text.Find | ATM33xx-5/lib/at_cmd/at_cmd_pasr.c:305 | strchr: the index of the first occurrence, or none exactly when the character is absent |
| Text.FirstField | ATM33xx-5/lib/at_cmd/at_cmd_pasr.c:209-214 | the text up to the first comma holds no comma, is a prefix of the input, and is followed by a comma when shorter than the input |
| Text.FieldsJoin | ATM33xx-5/lib/at_cmd/at_cmd_pasr.c:292-309 | splitting the input at its commas loses nothing: joining the fields back with commas gives the input |
| Text.FieldsHaveNoComma | ATM33xx-5/lib/at_cmd/at_cmd_pasr.c:292-309 | no field of the input holds a comma |
| Decimal.StrtolOfDecimal | ATM33xx-5/lib/at_cmd/at_cmd_pasr.c:188-193 | strtol reads back the `%d` rendering of any 32-bit value and stops right after its digits |
| Decimal.StrtoulOfDecimal | ATM33xx-5/lib/at_cmd/at_cmd_pasr.c:98-103 | strtoul reads back the rendering of any 32-bit unsigned value and stops right after its digits |
| Decimal.Strtol | ATM33xx-5/lib/at_cmd/at_cmd_pasr.c:120 | strtol returns a long: its result always lies in LONG_MIN..LONG_MAX |
| Decimal.Strtoul | ATM33xx-5/lib/at_cmd/at_cmd_pasr.c:102 | strtoul returns an unsigned long: its result always lies in 0..ULONG_MAX |
| Decimal.Atoi | ATM33xx-5/lib/at_cmd/at_cmd_pasr.c:91 | atoi returns an int in INT_MIN..INT_MAX |
| Decimal.StrtoulNegative | ATM33xx-5/lib/at_cmd/at_cmd_pasr.c:174 | strtoul reads a minus-signed magnitude m as 2^32 − m (0 for m = 0) |
| Decimal.StrtolSaturates | ATM33xx-5/lib/at_cmd/at_cmd_pasr.c:79-96 | strtol and atoi saturate: a magnitude above LONG_MAX reads as LONG_MAX, a negative one below LONG_MIN as LONG_MIN |
| Decimal.AtoiOfDecimal | ATM33xx-5/lib/at_cmd/at_cmd_pasr.c:79-96 | atoi reads back the `%d` rendering of any 32-bit value |
| Decimal.ReadsDecimal | ATM33xx-5/lib/at_cmd/at_cmd_pasr.c:98-203 | a rendering on its own is consumed entirely by the conversion and reads back as its value |
| Decimal.HexPairOfHex2 | ATM33xx-5/lib/at_cmd/at_cmd_pasr.c:225-229 | strtoul in base 16 on two `%02X` digits gives back the byte |
| Decimal.HexDigitsValueOfHex | ATM33xx-5/lib/at_cmd/at_cmd.c:97 | the `%X` rendering of the application error reads back as its value |
| PasrFormat.Tokens | ATM33xx-5/lib/at_cmd/at_cmd_pasr.c:389-401 | strtok_r yields only non-empty tokens |
| PasrFormat.TokensHaveNoComma | ATM33xx-5/lib/at_cmd/at_cmd_pasr.c:389-401 | no token holds a comma |
| PasrFormat.ScanNumber | ATM33xx-5/lib/at_cmd/at_cmd_pasr.c:79-96 | at_pasr_input_num finds nothing exactly when the delimiter is absent |
| PasrFormat.ScanSplit | ATM33xx-5/lib/at_cmd/at_cmd_pasr.c:79-96 | at_pasr_input_num converts the text before the delimiter with atoi and resumes after it |
| PasrFormat.Identify | ATM33xx-5/lib/at_cmd/at_cmd_pasr.c:311-387 | a compiled token is a well-formed TLV of the letter's kind, with status EMPTY_DATA and length 0, whose minimum and maximum are the resolved bounds narrowed to the kind's field width; the result is NULL exactly when the resolved kind is unknown |
| PasrFormat.BareLetter | ATM33xx-5/lib/at_cmd/at_cmd_pasr.c:316-323 | a known letter without `(` compiles to its kind with the table's default bounds |
| PasrFormat.UpperBound | ATM33xx-5/lib/at_cmd/at_cmd_pasr.c:327-331 | the text after `~` never changes the minimum, and keeps the kind or makes it unknown |
| PasrFormat.ResolveBounds | ATM33xx-5/lib/at_cmd/at_cmd_pasr.c:316-348 | the leading letter decides the kind, which the rest of the token can only make unknown |
| PasrFormat.UpperOnlyGroup | ATM33xx-5/lib/at_cmd/at_cmd_pasr.c:327-331 | the group `(~hi)` replaces only the maximum, stored through a uint32_t, and text after `)` makes the kind unknown |
| PasrFormat.LowerGroup | ATM33xx-5/lib/at_cmd/at_cmd_pasr.c:332-341 | the group `(lo~hi)` replaces both bounds, text after `)` making the kind unknown; `(lo~)` replaces only the minimum |
| PasrFormat.UpperOnly | ATM33xx-5/lib/at_cmd/at_cmd_pasr.c:327-331 | `L(~hi)` replaces only the maximum, and text after `)` makes the kind unknown |
| PasrFormat.LowerGiven | ATM33xx-5/lib/at_cmd/at_cmd_pasr.c:332-341 | `L(lo~hi)` replaces both bounds, with text after `)` making the kind unknown; `L(lo~)` replaces only the minimum and ignores what follows |
| PasrFormat.DecimalGroup | ATM33xx-5/lib/at_cmd/at_cmd_pasr.c:332-341 | bounds written in decimal, `L(lo~hi)`, resolve to lo and to hi stored through a uint32_t (hi itself when hi ≥ 0) |
| PasrFormat.DecimalUpper | ATM33xx-5/lib/at_cmd/at_cmd_pasr.c:327-331 | `L(~hi)` in decimal keeps the kind's default minimum |
| PasrFormat.DecimalLower | ATM33xx-5/lib/at_cmd/at_cmd_pasr.c:332-341 | `L(lo~)` in decimal keeps the kind's default maximum |
| PasrFormat.UpperSaturates | ATM33xx-5/lib/at_cmd/at_cmd_pasr.c:327-331 | a maximum written above 2147483647, such as `D(~4294967295)`, compiles to 2147483647 because atoi saturates |
| PasrFormat.IdentifyFitting | ATM33xx-5/lib/at_cmd/at_cmd_pasr.c:350-387 | bounds that fit the kind's fields reach the TLV unchanged |
| PasrFormat.ByteRangeExample | ATM33xx-5/lib/at_cmd/at_cmd.h:161-162 | `B(1~2)` is an unsigned byte from 1 to 2 |
| PasrFormat.UpperOnlyExample | ATM33xx-5/lib/at_cmd/at_cmd.h:164-165 | `W(~5)` is an unsigned 16-bit number from 0 to 5 |
| PasrFormat.StringDefaultExample | ATM33xx-5/lib/at_cmd/at_cmd_pasr.c:72 | a bare `S` allows 0 to 0xFFF octets |
| PasrFormat.ByteMaxWraps | ATM33xx-5/lib/at_cmd/at_cmd_pasr.c:350-356 | `B(lo~hi)` with a byte minimum compiles to a u8 TLV from lo to hi mod 256, so `B(0~300)` stores the maximum 44 |
| PasrFormat.UnknownLetterExample | ATM33xx-5/lib/at_cmd/at_cmd_pasr.c:369-371 | a token with an unknown letter compiles to nothing |
| PasrDecode.FieldNumber | ATM33xx-5/lib/at_cmd/at_cmd_pasr.c:98-203 | the number a numeric field holds lies within its kind's field |
| PasrDecode.DecodeNumber | ATM33xx-5/lib/at_cmd/at_cmd_pasr.c:98-203 | a field the conversion consumes records the kind's size and is OK exactly when the value lies within the bounds, RANGE_EXCEED otherwise; any other field is WRONG_TYPE with the value reset to 0, except i32, which keeps it |
| PasrDecode.HexBytes | ATM33xx-5/lib/at_cmd/at_cmd_pasr.c:225-229 | byte i is the value of characters 2i and 2i+1 |
| PasrDecode.DecodeArray | ATM33xx-5/lib/at_cmd/at_cmd_pasr.c:207-242 | the length is half the field's length (as a uint16_t); the status is INVALID_DATA exactly when the field's length is odd, and otherwise OK exactly when the length lies within the bounds |
| PasrDecode.DecodeString | ATM33xx-5/lib/at_cmd/at_cmd_pasr.c:244-270 | the field's characters are copied with their count as the length, OK exactly when the count lies within the bounds |
| PasrDecode.Decode | ATM33xx-5/lib/at_cmd/at_cmd_pasr.c:272-290 | the decoder of the TLV's kind keeps the TLV well formed, and an OK status means the value or length lies within the bounds |
| PasrDecode.Fill | ATM33xx-5/lib/at_cmd/at_cmd_pasr.c:299-303 | filling a TLV from a field keeps its kind and bounds and keeps it well formed, and its status is EMPTY_DATA exactly when the field is empty |
| PasrDecode.NextInput | ATM33xx-5/lib/at_cmd/at_cmd_pasr.c:305-306 | the input continues just after the first comma, and is NULL exactly when there is none |
| PasrDecode.InputArray | ATM33xx-5/lib/at_cmd/at_cmd_pasr.c:207-242 | the array decoder's byte loop computes DecodeArray |
| PasrDecode.HexStringAt | ATM33xx-5/lib/at_cmd/at_cmd.c:429-433 | characters 2i and 2i+1 of the `%02X` rendering are the digits of byte i |
| PasrDecode.ConvertStopsAtComma | ATM33xx-5/lib/at_cmd/at_cmd_pasr.c:103 | converting the field alone reads what the decoder reads from the whole remaining input |
| PasrDecode.DecodeDecimal | ATM33xx-5/lib/at_cmd/at_cmd_pasr.c:98-203 | a number written in decimal within its field reads back as itself and is checked against the bounds |
| PasrDecode.UnsignedWraps | ATM33xx-5/lib/at_cmd/at_cmd_pasr.c:98-114 | an unsigned field is reduced modulo its width before the range check |
| PasrDecode.ByteFieldWrapsExample | ATM33xx-5/lib/at_cmd/at_cmd_pasr.c:98-114 | with bounds 0..1 the u8 field `257` is OK with value 1 |
| PasrDecode.TrailingText | ATM33xx-5/lib/at_cmd/at_cmd_pasr.c:98-203 | text after the digits gives WRONG_TYPE, the value reset to 0 except for i32 |
| PasrDecode.I32KeepsSaturated | ATM33xx-5/lib/at_cmd/at_cmd_pasr.c:188-202 | the i32 decoder keeps strtol's value on WRONG_TYPE: digits beyond the long range followed by other text keep 2147483647 |
| PasrDecode.MinusOneAsU32 | ATM33xx-5/lib/at_cmd/at_cmd_pasr.c:170-186 | a bare `D` field reads `-1` through strtoul as 0xFFFFFFFF and accepts it |
| PasrDecode.LenCheckArray | ATM33xx-5/lib/at_cmd/at_cmd_pasr.h:85-87 | the length check on an array received as `%02X` pairs holds exactly for its byte count |
| PasrDecode.LenCheckString | ATM33xx-5/lib/at_cmd/at_cmd_pasr.h:85-87 | the length check on a string field holds exactly for its character count |
| PasrDecode.HexBytesOfHexString | ATM33xx-5/lib/at_cmd/at_cmd_pasr.c:225-229 | reading the hex pairs of a `%02X` rendering gives back the bytes |
| PasrDecode.ArrayRoundTrip | ATM33xx-5/lib/at_cmd/at_cmd_pasr.c:207-242 | an array field written as `%02X` pairs decodes to the same bytes |
| PasrDecode.StringRoundTrip | ATM33xx-5/lib/at_cmd/at_cmd_pasr.c:244-270 | a string field is stored as it is |
| PasrStore.CompileAllAt | ATM33xx-5/lib/at_cmd/at_cmd_pasr.c:389-401 | the k-th compiled entry is the k-th token compiled |
| PasrStore.Compiled | ATM33xx-5/lib/at_cmd/at_cmd_pasr.c:428 | the walk reaches as many tokens as compile before the first that does not |
| PasrStore.WalkStep | ATM33xx-5/lib/at_cmd/at_cmd_pasr.c:292-309 | one step pairs the compiled TLV with the first field and continues after the comma |
| PasrStore.WalkStops | ATM33xx-5/lib/at_cmd/at_cmd_pasr.c:428-431 | the walk ends when the tokens run out, a token does not compile, or the input is NULL |
| PasrStore.FillAllAt | ATM33xx-5/lib/at_cmd/at_cmd_pasr.c:298-302 | the i-th stored TLV is its compiled TLV filled from its field |
| PasrStore.Take | ATM33xx-5/lib/at_cmd/at_cmd_pasr.c:403-412 | values past the store's capacity are dropped |
| PasrStore.TakeAppend | ATM33xx-5/lib/at_cmd/at_cmd_pasr.c:403-412 | storing appends while there is room and changes nothing otherwise |
| PasrStore.ValidateSpec | ATM33xx-5/lib/at_cmd/at_cmd_pasr.c:419-436 | a store in use gives BUSY and nothing else; otherwise OK or MORE_DATA with at most ten values |
| PasrStore.WalkTakesFields | ATM33xx-5/lib/at_cmd/at_cmd_pasr.c:426-435 | the walk takes as many fields as there are leading compiled tokens or fields, whichever is fewer (empty fields count), and the input is left non-NULL exactly when a field was not taken |
| PasrStore.WalkPairsAt | ATM33xx-5/lib/at_cmd/at_cmd_pasr.c:426-433 | the walk pairs the i-th compiled token with the i-th field of the input |
| PasrStore.ValidateDecodesFields | ATM33xx-5/lib/at_cmd/at_cmd_pasr.c:419-436 | validation gives MORE_DATA exactly when fields were left over, stores min(taken, 10) values, and the i-th value is the i-th token filled from the i-th field |
| PasrStore.ValidatedWellFormed | ATM33xx-5/lib/at_cmd/at_cmd_pasr.c:419-436 | every parameter validation stores has a payload of its kind that fits its fields |
| PasrStore.ValidatedParam | ATM33xx-5/lib/at_cmd/at_cmd_pasr.h:98-101 | AT_PASR_GET_PARAM on a stored parameter of the requested kind reads a number within the kind's field, or as many bytes or characters as its length |
| PasrStore.ParamStore.constructor | ATM33xx-5/lib/at_cmd/at_cmd_pasr.c:76-77 | the store starts empty |
| PasrStore.ParamStore.Store | ATM33xx-5/lib/at_cmd/at_cmd_pasr.c:403-412 | a value is appended while there is room and dropped otherwise |
| PasrStore.ParamStore.Validate | ATM33xx-5/lib/at_cmd/at_cmd_pasr.c:419-436 | the result and the stored values are those of ValidateSpec, and a busy store is left untouched |
| PasrStore.ParamStore.WalkInto | ATM33xx-5/lib/at_cmd/at_cmd_pasr.c:426-433 | the loop leaves the input pointer and the stored values that the walk specifies |
| PasrStore.ParamStore.Feed | ATM33xx-5/lib/at_cmd/at_cmd_pasr.c:429-432 | one turn of the loop stores the filled TLV and advances the input |
| PasrStore.ParamStore.Get | ATM33xx-5/lib/at_cmd/at_cmd_pasr.c:438-445 | at_pasr_param_get returns the i-th stored value, or NULL exactly when i is not below the count |
| PasrStore.ParamStore.NumGet | ATM33xx-5/lib/at_cmd/at_cmd_pasr.c:447-450 | at_pasr_param_num_get returns the count |
| PasrStore.ParamStore.Clear | ATM33xx-5/lib/at_cmd/at_cmd_pasr.c:458-465 | after at_pasr_clear the store is empty |
| PasrStore.FmtWalk | ATM33xx-5/lib/at_cmd/at_cmd_pasr.c:389-401 | at_pasr_fmt_walk compiles the k-th token |
| PasrStore.InputWalk | ATM33xx-5/lib/at_cmd/at_cmd_pasr.c:292-309 | an empty field marks the TLV EMPTY_DATA, any other is decoded, and the input continues after the comma |
| PasrStore.RevalidateAfterClear | ATM33xx-5/lib/at_cmd/at_cmd_pasr.c:414-436 | after a clear the next validation is not busy and stores what it decodes |
| Framer.Prefix | ATM33xx-5/lib/at_cmd/at_cmd.c:394-401 | the prefix is at most two characters |
| Framer.ConcatFrame | ATM33xx-5/lib/at_cmd/at_cmd.c:440-461 | the reported response is never longer than AT_CMD_RESP_LEN |
| Framer.FrameFits | ATM33xx-5/lib/at_cmd/at_cmd.c:440-461 | a response that fits is sent whole; with at_all it is `\r\n` + payload + `\r\n`, of length \|payload\| + 4 |
| Framer.FrameTruncates | ATM33xx-5/lib/at_cmd/at_cmd.c:403-419 | a response that does not fit is cut to AT_CMD_RESP_LEN characters; when prefix and payload end one short of that, the postfix is counted but not written, and the response ends with the NUL vsnprintf wrote |
| Framer.Strcpy | ATM33xx-5/lib/at_cmd/at_cmd.c:397 | strcpy writes the string and a NUL at the offset, and nothing before or after them |
| Framer.Snprintf | ATM33xx-5/lib/at_cmd/at_cmd.c:450-451 | snprintf writes at most size − 1 characters and a NUL, nothing outside them (nothing at all for size 0), and returns the full length |
| Framer.WritePrefix | ATM33xx-5/lib/at_cmd/at_cmd.c:394-401 | at_cmd_prefix writes the prefix a flag selects, with a NUL after it, changes nothing else (nothing at all without a prefix) and returns the offset after it |
| Framer.WritePostfix | ATM33xx-5/lib/at_cmd/at_cmd.c:403-419 | at_cmd_postfix writes the postfix and a NUL only when it fits, changes nothing else, counts it either way, and clamps the offset to AT_CMD_RESP_LEN |
| Framer.RespConcat | ATM33xx-5/lib/at_cmd/at_cmd.c:440-461 | the characters assembled in the buffer are ConcatFrame |
| Framer.OverrunThreshold | ATM33xx-5/lib/at_cmd/at_cmd.c:421-438 | the `%02X` loop writes outside the buffer exactly from 129 bytes on with a prefix, from 130 without |
| Framer.RespArray | ATM33xx-5/lib/at_cmd/at_cmd.c:421-438 | outside the overrun, the response is the at_cmd_resp_concat frame of the hex rendering; the overrun is reported as none |
| Framer.WriteHexBytes | ATM33xx-5/lib/at_cmd/at_cmd.c:427-433 | the loop stays inside the buffer exactly when there is no overrun, and then leaves the prefix followed by the `%02X` rendering of all bytes, with the offset just after it |
| Framer.WriteByte | ATM33xx-5/lib/at_cmd/at_cmd.c:428-432 | one byte's snprintf extends what the buffer shows by its two digits |
| Framer.FrameMatches | ATM33xx-5/lib/at_cmd/at_cmd.c:434-437 | the buffer after the postfix holds ConcatFrame |
| Registry.Compare | ATM33xx-5/lib/at_cmd/at_cmd.c:309-318 | the order of names is a sign |
| Registry.CompareZero | ATM33xx-5/lib/at_cmd/at_cmd.c:309-312 | names compare equal exactly when they are equal |
| Registry.CompareFlip | ATM33xx-5/lib/at_cmd/at_cmd.c:309-318 | swapping names flips the sign |
| Registry.CompareTrans | ATM33xx-5/lib/at_cmd/at_cmd.c:309-318 | the order is transitive |
| Registry.Strncmp | ATM33xx-5/lib/at_cmd/at_cmd.c:310 | strncmp is zero exactly when the first n characters agree |
| Registry.StrncmpPrefix | ATM33xx-5/lib/at_cmd/at_cmd.c:310 | strncmp reads no character past the n-th |
| Registry.ProbeIsCompare | ATM33xx-5/lib/at_cmd/at_cmd.c:309-318 | strncmp over the shorter length, with the lengths deciding a tie, orders as strcmp |
| Registry.NameEnd | ATM33xx-5/lib/at_cmd/at_cmd.c:285-294 | the name ends at the first `=` or `?`, or at the end of the text |
| Registry.Candidate | ATM33xx-5/lib/at_cmd/at_cmd.c:285-294 | the candidate is a prefix of the text holding no `=` or `?` |
| Registry.CandidateOfSuffix | ATM33xx-5/lib/at_cmd/at_cmd.c:285-294 | a name followed by nothing or by `=`/`?` is its own candidate |
| Registry.Lookup | ATM33xx-5/lib/at_cmd/at_cmd.c:279-322 | the reference search finds an entry with the name, or none exactly when no entry has it |
| Registry.LookupUnique | ATM33xx-5/lib/at_cmd/at_cmd.c:279-322 | in a sorted table the entry carrying a name is the one found |
| Registry.Resolve | ATM33xx-5/lib/at_cmd/at_cmd.c:279-322 | a text resolves exactly when its candidate is non-empty and registered, and then to an entry of that name |
| Registry.SuffixesResolveAlike | ATM33xx-5/lib/at_cmd/at_cmd.c:285-294 | NAME, NAME? and NAME=? resolve to the same command |
| Registry.IsAvailable | ATM33xx-5/lib/at_cmd/at_cmd.c:279-322 | the binary search over the sorted table finds exactly what Resolve specifies |
| Dispatch.XferUart | ATM33xx-5/lib/at_cmd/at_cmd.c:253-268 | short accepted text leaves nothing to process |
| Dispatch.UartStripsHeader | ATM33xx-5/lib/at_cmd/at_cmd.c:264-267 | longer text loses exactly its first three characters, whatever they are |
| Dispatch.UartShortText | ATM33xx-5/lib/at_cmd/at_cmd.c:257-263 | text of at most three characters is accepted exactly when it is `AT` |
| Dispatch.StatusFrames | ATM33xx-5/lib/at_cmd/at_cmd.c:88-103 | the specific error sends two frames, every other status one |
| Dispatch.StatusText | ATM33xx-5/lib/at_cmd/at_cmd.c:88-103 | no error sends `\r\nOK\r\n`; the specific error sends `+NAME:<app_err in hex>` and then `ERR`; any other error sends `ERR:<code>` |
| Dispatch.SendStatus | ATM33xx-5/lib/at_cmd/at_cmd.c:88-103 | at_send_status sends StatusFrames |
| Dispatch.ListFrameAt | ATM33xx-5/lib/at_cmd/at_cmd.c:487-495 | the list has one frame per command, the i-th `\r\n+NAME:TEST` without a postfix |
| Dispatch.ListLength | ATM33xx-5/lib/at_cmd/at_cmd.c:487-495 | the list has one frame per command |
| Dispatch.CheckArgs | ATM33xx-5/lib/at_cmd/at_cmd.c:105-129 | a count other than the expected one gives WRONG_ARGU_CNT and becomes argc; otherwise the first argument neither OK nor EMPTY_DATA gives WRONG_ARGU_TYPE_OR_RANGE |
| Dispatch.CallHandler | ATM33xx-5/lib/at_cmd/at_cmd.c:209-237 | at_call_handler sends what Call specifies and leaves the debug flag it specifies |
| Dispatch.Emitted | ATM33xx-5/lib/at_cmd/at_cmd.c:81-86 | a channel with a response handler receives every frame, in order, and one without receives none |
| Dispatch.Dispatcher.constructor | ATM33xx-5/lib/at_cmd/at_cmd.c:77-79 | the pool starts with no transport and no response handler, the debug flag off |
| Dispatch.Dispatcher.Alloc | ATM33xx-5/lib/at_cmd/at_cmd.c:377-392 | the lowest slot without a response handler takes the context, with the sentinel replaced by the UART stripper; no other slot changes; a full pool returns AT_CMD_INVALID_CH |
| Dispatch.Dispatcher.Send | ATM33xx-5/lib/at_cmd/at_cmd.c:81-86 | frames reach the channel's response handler only when it has one |
| Dispatch.Dispatcher.RespRaw | ATM33xx-5/lib/at_cmd/at_cmd.c:463-470 | raw data reaches the channel's response handler unframed, only when it has one |
| Dispatch.Dispatcher.Proc | ATM33xx-5/lib/at_cmd/at_cmd.c:324-375 | at_cmd_proc returns, sends and sets the debug flag as Process specifies, and leaves the store clear |
| Dispatch.Dispatcher.Classify | ATM33xx-5/lib/at_cmd/at_cmd.c:352-374 | the classification and the execution path produce what Command specifies and clear the store after an execution |
| ProcLemmas.NotSupportedFrames | ATM33xx-5/lib/at_cmd/at_cmd.c:100-101 | not supported is `\r\nERR:1\r\n` |
| ProcLemmas.OkayFrames | ATM33xx-5/lib/at_cmd/at_cmd.c:91-92 | no error is `\r\nOK\r\n` |
| ProcLemmas.UnknownName | ATM33xx-5/lib/at_cmd/at_cmd.c:346-350 | a text naming no registered command gets ERR:1 and is refused |
| ProcLemmas.NameResolves | ATM33xx-5/lib/at_cmd/at_cmd.c:346-374 | a text whose candidate is a registered name is handled by that command |
| ProcLemmas.BareName | ATM33xx-5/lib/at_cmd/at_cmd.c:352-356 | the bare name gets ERR:1 and is refused |
| ProcLemmas.QueryForm | ATM33xx-5/lib/at_cmd/at_cmd.c:358-362 | NAME? calls the handler as a query with no error and no arguments, then sends OK, whatever the handler reports |
| ProcLemmas.TestForm | ATM33xx-5/lib/at_cmd/at_cmd.c:364-368 | NAME=? sends `+NAME:<test>` and OK without calling the handler |
| ProcLemmas.SeparatorIgnored | ATM33xx-5/lib/at_cmd/at_cmd.c:370-374 | any other text is accepted, and the character after the name is not examined |
| ProcLemmas.ExecForm | ATM33xx-5/lib/at_cmd/at_cmd.c:370-374 | an execution validates the text one character after the name and calls the handler with MORE_DATA as the residue |
| ProcLemmas.ResidueOverrides | ATM33xx-5/lib/at_cmd/at_cmd.c:219-232 | a MORE_DATA residue makes the error WRONG_ARGU_CNT whatever the argument check found; the handler is still called and its status sent |
| ProcLemmas.DebugTokens | ATM33xx-5/lib/at_cmd/at_cmd.c:508 | DEBUG's format `B(0~1)` is a single token |
| ProcLemmas.DebugToken | ATM33xx-5/lib/at_cmd/at_cmd.c:508 | that token compiles to a u8 from 0 to 1 |
| ProcLemmas.DebugFormat | ATM33xx-5/lib/at_cmd/at_cmd.c:507-510 | the DEBUG command's format compiles to one u8 from 0 to 1 |
| ProcLemmas.OneTokenFormat | ATM33xx-5/lib/at_cmd/at_cmd_pasr.c:419-436 | a one-token format takes a field without commas whole, with nothing left over |
| ProcLemmas.DebugValidate | ATM33xx-5/lib/at_cmd/at_cmd_pasr.c:98-114 | DEBUG's argument decodes to one u8 TLV, with status OK and nothing left over |
| ProcLemmas.DebugCall | ATM33xx-5/lib/at_cmd/at_cmd.c:512-517 | DEBUG with an acceptable argument answers OK and sets the flag to the argument being non-zero; otherwise it answers ERR:5 and keeps the flag |
| ProcLemmas.DebugSets | ATM33xx-5/lib/at_cmd/at_cmd.c:507-517 | `DEBUG=v` answers OK and sets the flag to (v mod 256 = 1) when v mod 256 ≤ 1; otherwise it answers ERR:5 and leaves the flag |
| ProcLemmas.DebugResolves | ATM33xx-5/lib/at_cmd/at_cmd.c:346-350 | `DEBUG=v` resolves to the registered DEBUG command |
| ProcLemmas.DebugReceived | ATM33xx-5/lib/at_cmd/at_cmd.c:324-375 | the received text `DEBUG=v` is answered OK with the flag set when v mod 256 ≤ 1, and ERR:5 otherwise |
| ProcLemmas.ListQuery | ATM33xx-5/lib/at_cmd/at_cmd.c:497-502 | LISTCMDS? sends one `+NAME:TEST` frame per command and then OK |
| ProcLemmas.UartAttention | ATM33xx-5/lib/at_cmd/at_cmd.c:339-342 | over the UART transport `AT` alone is answered OK |
| ProcLemmas.UartShortRefused | ATM33xx-5/lib/at_cmd/at_cmd.c:332-337 | over the UART transport other text of at most three characters gets ERR:1 |
| ProcLemmas.UartForwards | ATM33xx-5/lib/at_cmd/at_cmd.c:264-267 | over the UART transport longer text is processed as the text after its first three characters |

## Left out

- Logging, the debug printing of arguments (`at_cmd_dbg_arg`) and its name tables: output for humans only.
- `malloc`, `realloc`, `calloc` and `free`, with their failure paths: allocation is taken to succeed. A TLV compiled when the input is already NULL is not stored; the leak this causes in C is not modelled.
- The linker-section discovery of the command table (`at_cmd_enum`, `at_cmd_content_get`, `at_cmd_count`): the table is a given sequence sorted by name, and its size is its length.
- Command tables of 65536 entries or more: the C search indices are `uint16_t`, and the model's indices are unbounded.
- Handler function pointers: each application handler is a function from its parameter record to the error, application error and frames it leaves. The built-in handlers are modelled as they are written.
- The custom transport: it is a function from the received text to the text to process (None for NULL). A transport that returns a pointer together with a different length is not modelled.
- General `printf` formatting: payloads are already-rendered strings. Only `%d`, `%X` and `%02X` are modelled.
- Whitespace and locale in strtol, strtoul and atoi: a field starts with its sign or its first digit.
- Strings with embedded NUL: a received text is exactly its `data_len` characters.
- Registry.Strncmp: modelled only for counts within both strings, which is how at_cmd_is_available calls it.
- Commands whose test string is NULL: a command's test string is always a string, so `NAME=?` and `LISTCMDS?` for a command that leaves it NULL, where C formats a NULL pointer with `%s`, are not modelled.
- Dispatch.Dispatcher.Alloc: on a full pool the C code asserts before returning AT_CMD_INVALID_CH; the model returns InvalidCh as a build without assertions does, and does not model the assertion stopping the program.
- Dispatch.RunHandler: AT_PASR_GET_PARAM's assertion on the argument kind is modelled as a guard. DEBUG with a first argument that is not a u8 leaves the flag unchanged, where the C code would stop on the assertion.
- Dispatch.StatusText: the specific error's text is stated only when the name and the hexadecimal error fit in one response (at most 250 characters together). The general case is ConcatFrame's truncation.
- The application error is a natural number reduced to 16 bits; a negative `int` passed as the application error is not modelled.
- The data_residue field of the parameter record: the code never sets it.
- The `AUTO_TEST` build of at_cmd_resp_raw, which sends nothing.
- Framer.RespArray: the overrun, where snprintf would be given a negative size and write outside the buffer, is reported as None instead of being modelled as memory corruption.
- The format string is an immutable value, so the C code's guarantee that validation works on a copy and never changes the command's format holds by construction.
- The DEBUG lemmas (ProcLemmas.DebugFormat and those after it) are stated for any command named DEBUG with DEBUG's handler, one parameter and the format `B(0~1)` (ProcLemmas.IsDebugCmd, ProcLemmas.DebugLike). The texts `DEBUG=1`, `DEBUG=2` and `DEBUG=257` are the instances v = 1, 2 and 257 of ProcLemmas.DebugReceived.

=== FILE: cmd_types.dfy ===
/**
 * The data model of the AT command core: command types, error codes, response flags, the
 * registered command, the record a handler receives, and the transport channels.
 */
module CmdTypes {
  import opened Wrappers
  import opened PasrTypes

  /** AT_CMD_RESP_LEN: the most bytes one response reports; its buffer holds one more. */
  const RespLen: nat := 256

  /** AT_CMD_INVALID_CH: what allocation returns when every channel is taken. */
  const InvalidCh: nat := 0xFF

  /** AT_CMD_XFER_MAX_NUM: the number of transport channels. */
  const XferMaxNum: nat := 3

  /** at_cmd_type_t: "AT+<x>=?", "AT+<x>?" and "AT+<x>=...". */
  datatype CmdType = Test | Query | Exec
  {
    function Code(): nat
    {
      match this
      case Test => 0
      case Query => 1
      case Exec => 2
    }
  }

  /** at_cmd_err_t, the code printed after "ERR:". */
  datatype CmdErr =
    | NoError | NotSupport | WrongArguCnt | WrongArguRange | WrongArguType
    | WrongArguTypeOrRange | WrongArguContent | WrongExecuteType | SpecificErr
  {
    function Code(): nat
    {
      match this
      case NoError => 0
      case NotSupport => 1
      case WrongArguCnt => 2
      case WrongArguRange => 3
      case WrongArguType => 4
      case WrongArguTypeOrRange => 5
      case WrongArguContent => 6
      case WrongExecuteType => 7
      case SpecificErr => 0x80
    }
  }

  /** at_cmd_resp_flag_t: which of prefix, data and postfix a response carries. */
  datatype RespFlag = RespFlag(prefix: bool, data: bool, postfix: bool)
  {
    /** The flag as the bit set at_prefix = 1, at_data = 2, at_postfix = 4. */
    function Bits(): nat
    {
      (if prefix then 1 else 0) + (if data then 2 else 0) + (if postfix then 4 else 0)
    }
  }

  /** The parts selected by an integer flag: each is present when its bit is set. */
  function FromBits(n: nat): RespFlag
  {
    RespFlag(n % 2 == 1, n / 2 % 2 == 1, n / 4 % 2 == 1)
  }

  /** at_all = at_prefix | at_data | at_postfix. */
  const All: RespFlag := RespFlag(true, true, true)

  /** at_prefix | at_data, the frames of the command list. */
  const PrefixData: RespFlag := RespFlag(true, true, false)

  /** The flag values of the header, and the bits and the flags correspond one to one. */
  lemma FlagBits(f: RespFlag)
    ensures RespFlag(true, false, false).Bits() == 1 && RespFlag(false, true, false).Bits() == 2
    ensures RespFlag(false, false, true).Bits() == 4 && All.Bits() == 7
    ensures FromBits(f.Bits()) == f
  {
  }

  /** Only the three low bits of an integer flag matter. */
  lemma LowBits(n: nat)
    ensures FromBits(n).Bits() == n % 8
  {
    var q, r := n / 8, n % 8;
    assert n == 8 * q + r;
    assert n % 2 == r % 2;
    assert n / 2 == 4 * q + r / 2;
    assert n / 2 % 2 == r / 2 % 2;
    assert n / 4 == 2 * q + r / 4;
    assert n / 4 % 2 == r / 4 % 2;
  }

  /**
   * at_cmd_param_t as a handler sees it: the command type, the error found so far, the
   * argument count, the decoded arguments, the channel, the command's name and the
   * application error the handler may set.
   */
  datatype Param = Param(kind: CmdType, err: CmdErr, argc: nat, args: seq<Tlv>, ch: nat, name: string, appErr: nat)

  /**
   * What a handler leaves in its parameter record, the error and the application error, with
   * the frames it sent itself through the response functions.
   */
  datatype Verdict = Verdict(err: CmdErr, appErr: nat, out: seq<string>)

  /**
   * at_cmd_hdlr_t: the two built-in handlers, and an application handler given as the
   * function from its parameter record to what it leaves in that record.
   */
  datatype Handler = ListCmds | Debug | App(run: Param -> Verdict)

  /** at_cmd_t: name, parameter format, expected parameter count, handler and test response. */
  datatype Cmd = Cmd(name: string, fmt: string, paramNum: nat, handler: Handler, test: string)

  /**
   * at_cmd_xfer_hdlr_t as a channel holds it: none, the built-in UART header stripper, or an
   * application transport from the received bytes to the command text (None for NULL).
   */
  datatype Transport = Direct | Uart | Custom(xfer: string -> Option<string>)

  /** The transport requested at allocation: NULL, the AT_CMD_DFT_XFER_UART sentinel, or a function. */
  datatype XferRequest = NullXfer | DftXferUart | XferFn(xfer: string -> Option<string>)

  /** at_cmd_alloc_ctx_t: the transport and whether a response handler is given. */
  datatype AllocCtx = AllocCtx(xfer: XferRequest, resp: bool)

  /** One entry of at_ctx: its transport and whether a response handler is set. */
  datatype Channel = Channel(xfer: Transport, resp: bool)
}

=== FILE: decimal.dfy ===
/**
 * The C library number conversions the AT engine relies on, for a target whose `int` and `long`
 * are 32 bits wide: strtol, strtoul and atoi in base 10, strtoul in base 16 on a two-character
 * buffer, and the printf renderings %d, %X and %02X.  Leading white space, which these
 * functions skip, is not modelled: a field must start with its sign or its first digit.
 */
module Decimal {

  const LongMin: int := -0x8000_0000
  const LongMax: int := 0x7FFF_FFFF
  const ULongMax: int := 0xFFFF_FFFF

  predicate IsDigit(c: char) { '0' <= c <= '9' }

  function DigitValue(c: char): (d: nat)
    requires IsDigit(c)
    ensures d < 10
  {
    (c as int) - ('0' as int)
  }

  function DigitChar(d: nat): (c: char)
    requires d < 10
    ensures IsDigit(c) && DigitValue(c) == d
  {
    (('0' as int) + d) as char
  }

  predicate AllDigits(s: string) { forall i :: 0 <= i < |s| ==> IsDigit(s[i]) }

  /** The number of decimal digits at the start of s. */
  function LeadingDigits(s: string): (n: nat)
    ensures n <= |s| && AllDigits(s[..n])
    ensures n < |s| ==> !IsDigit(s[n])
  {
    if s != [] && IsDigit(s[0]) then
      var m := LeadingDigits(s[1..]);
      assert s[..m + 1] == [s[0]] + s[1..][..m];
      1 + m
    else 0
  }

  /** The value of a string of decimal digits, most significant first. */
  function DigitsValue(s: string): nat
    requires AllDigits(s)
  {
    if s == [] then 0 else 10 * DigitsValue(s[..|s| - 1]) + DigitValue(s[|s| - 1])
  }

  /**
   * What a base-10 conversion reads from the start of s: an optional sign and the longest run
   * of digits after it.  `end` is the index just past the digits, or 0 when there is none, since
   * strtol then leaves its end pointer at the start of the text.
   */
  datatype Conversion = Conversion(negative: bool, magnitude: nat, end: nat)

  function Convert(s: string): (c: Conversion)
    ensures c.end <= |s|
    ensures c.end == 0 ==> c == Conversion(false, 0, 0)
    ensures 0 < c.end < |s| ==> !IsDigit(s[c.end])
  {
    var sign := if s != [] && (s[0] == '+' || s[0] == '-') then 1 else 0;
    var n := LeadingDigits(s[sign..]);
    if n == 0 then Conversion(false, 0, 0)
    else Conversion(sign == 1 && s[0] == '-', DigitsValue(s[sign..][..n]), sign + n)
  }

  /** strtol(s, &end, 10): the signed value, saturated at LONG_MIN and LONG_MAX. */
  function Strtol(s: string): (v: int)
    ensures LongMin <= v <= LongMax
  {
    var c := Convert(s);
    var v: int := if c.negative then -(c.magnitude as int) else c.magnitude;
    if v < LongMin then LongMin else if v > LongMax then LongMax else v
  }

  /**
   * strtoul(s, &end, 10): a magnitude above ULONG_MAX saturates at ULONG_MAX; otherwise a minus
   * sign negates the magnitude in unsigned arithmetic.
   */
  function Strtoul(s: string): (v: int)
    ensures 0 <= v <= ULongMax
  {
    var c := Convert(s);
    if c.magnitude > ULongMax then ULongMax
    else if c.negative then (ULongMax + 1 - c.magnitude) % (ULongMax + 1)
    else c.magnitude
  }

  /** atoi(s), which both newlib and glibc compute as (int)strtol(s, NULL, 10). */
  function Atoi(s: string): (v: int)
    ensures LongMin <= v <= LongMax
  {
    Strtol(s)
  }

  /** The %u rendering of a natural number. */
  function NatToDecimal(n: nat): (s: string)
    ensures |s| > 0 && AllDigits(s)
  {
    if n < 10 then [DigitChar(n)] else NatToDecimal(n / 10) + [DigitChar(n % 10)]
  }

  /** The %d rendering of an integer. */
  function IntToDecimal(v: int): (s: string)
    ensures |s| > 0
  {
    if v < 0 then "-" + NatToDecimal(-v) else NatToDecimal(v)
  }

  lemma {:induction false} DigitsValueOfDecimal(n: nat)
    ensures DigitsValue(NatToDecimal(n)) == n
  {
    if n >= 10 {
      var s := NatToDecimal(n);
      assert s[..|s| - 1] == NatToDecimal(n / 10);
      DigitsValueOfDecimal(n / 10);
    }
  }

  lemma {:induction false} LeadingDigitsOfDigits(d: string, rest: string)
    requires AllDigits(d)
    requires rest == [] || !IsDigit(rest[0])
    ensures LeadingDigits(d + rest) == |d|
  {
    if d != [] {
      assert (d + rest)[1..] == d[1..] + rest;
      LeadingDigitsOfDigits(d[1..], rest);
    } else {
      assert d + rest == rest;
    }
  }

  /** The digits of a %u rendering followed by a non-digit read back as the number. */
  lemma ConvertDigits(m: nat, rest: string)
    requires rest == [] || !IsDigit(rest[0])
    ensures LeadingDigits(NatToDecimal(m) + rest) == |NatToDecimal(m)|
    ensures DigitsValue((NatToDecimal(m) + rest)[..|NatToDecimal(m)|]) == m
  {
    var d := NatToDecimal(m);
    LeadingDigitsOfDigits(d, rest);
    assert (d + rest)[..|d|] == d;
    DigitsValueOfDecimal(m);
  }

  lemma ConvertUnsigned(m: nat, rest: string)
    requires rest == [] || !IsDigit(rest[0])
    ensures Convert(NatToDecimal(m) + rest) == Conversion(false, m, |NatToDecimal(m)|)
  {
    var s := NatToDecimal(m) + rest;
    ConvertDigits(m, rest);
    assert IsDigit(s[0]);
    assert s[0..] == s;
  }

  lemma ConvertNegative(m: nat, rest: string)
    requires rest == [] || !IsDigit(rest[0])
    ensures Convert(['-'] + NatToDecimal(m) + rest) == Conversion(true, m, 1 + |NatToDecimal(m)|)
  {
    var s := ['-'] + NatToDecimal(m) + rest;
    ConvertDigits(m, rest);
    assert s[1..] == NatToDecimal(m) + rest;
  }

  /** The conversion reads back exactly the number that %d rendered, and stops right after it. */
  lemma ConvertDecimal(v: int, rest: string)
    requires rest == [] || !IsDigit(rest[0])
    ensures Convert(IntToDecimal(v) + rest)
         == Conversion(v < 0, if v < 0 then -v else v, |IntToDecimal(v)|)
  {
    if v < 0 {
      ConvertNegative(-v, rest);
      assert IntToDecimal(v) + rest == ['-'] + NatToDecimal(-v) + rest;
    } else {
      ConvertUnsigned(v, rest);
    }
  }

  /** strtol inverts %d on the 32-bit range. */
  lemma StrtolOfDecimal(v: int, rest: string)
    requires LongMin <= v <= LongMax
    requires rest == [] || !IsDigit(rest[0])
    ensures Strtol(IntToDecimal(v) + rest) == v
    ensures Convert(IntToDecimal(v) + rest).end == |IntToDecimal(v)|
  {
    ConvertDecimal(v, rest);
  }

  /** A %d rendering on its own: both conversions consume all of it and read the number back. */
  lemma ReadsDecimal(v: int)
    requires LongMin <= v <= ULongMax
    ensures Convert(IntToDecimal(v)).end == |IntToDecimal(v)|
    ensures v <= LongMax ==> Strtol(IntToDecimal(v)) == v
    ensures v >= 0 ==> Strtoul(IntToDecimal(v)) == v
  {
    var s := IntToDecimal(v);
    assert s + [] == s;
    ConvertDecimal(v, []);
  }

  /** A %d rendering holds digits and at most a minus sign. */
  lemma DecimalSpelling(v: int)
    ensures forall c :: c in IntToDecimal(v) ==> c == '-' || IsDigit(c)
  {
    var d := NatToDecimal(if v < 0 then -v else v);
    assert forall i :: 0 <= i < |d| ==> IsDigit(d[i]);
  }

  /** atoi reads back the %d rendering of any long. */
  lemma AtoiOfDecimal(v: int, s: string)
    requires LongMin <= v <= LongMax && s == IntToDecimal(v)
    ensures Atoi(s) == v
  {
    StrtolOfDecimal(v, []);
    assert s + [] == s;
  }

  /** strtoul inverts %u on the 32-bit unsigned range. */
  lemma StrtoulOfDecimal(v: nat, rest: string)
    requires v <= ULongMax
    requires rest == [] || !IsDigit(rest[0])
    ensures Strtoul(IntToDecimal(v) + rest) == v
    ensures Convert(IntToDecimal(v) + rest).end == |IntToDecimal(v)|
  {
    ConvertDecimal(v, rest);
  }

  /** strtoul negates a minus-signed magnitude in unsigned arithmetic: "-m" reads as 2^32 - m. */
  lemma StrtoulNegative(m: nat, rest: string)
    requires m <= ULongMax
    requires rest == [] || !IsDigit(rest[0])
    ensures Strtoul(['-'] + NatToDecimal(m) + rest) == (ULongMax + 1 - m) % (ULongMax + 1)
    ensures m != 0 ==> Strtoul(['-'] + NatToDecimal(m) + rest) == ULongMax + 1 - m
  {
    ConvertNegative(m, rest);
  }

  /** strtol (and so atoi) saturates: a magnitude beyond the long range reads as LONG_MAX or LONG_MIN. */
  lemma StrtolSaturates(m: nat, rest: string)
    requires rest == [] || !IsDigit(rest[0])
    ensures m > LongMax ==> Strtol(NatToDecimal(m) + rest) == LongMax
    ensures m > -LongMin ==> Strtol(['-'] + NatToDecimal(m) + rest) == LongMin
  {
    ConvertUnsigned(m, rest);
    ConvertNegative(m, rest);
  }

  predicate IsHexDigit(c: char) { IsDigit(c) || 'a' <= c <= 'f' || 'A' <= c <= 'F' }

  function HexValue(c: char): (d: nat)
    requires IsHexDigit(c)
    ensures d < 16
  {
    if IsDigit(c) then DigitValue(c)
    else if 'a' <= c <= 'f' then (c as int) - ('a' as int) + 10
    else (c as int) - ('A' as int) + 10
  }

  /** The upper-case hexadecimal digit of printf's %X. */
  function HexDigitUpper(d: nat): (c: char)
    requires d < 16
    ensures IsHexDigit(c) && HexValue(c) == d && !('a' <= c <= 'f')
  {
    if d < 10 then DigitChar(d) else (('A' as int) + d - 10) as char
  }

  /** The %02X rendering of a byte: exactly two upper-case digits. */
  function Hex2(b: nat): (s: string)
    requires b < 256
    ensures |s| == 2
  {
    [HexDigitUpper(b / 16), HexDigitUpper(b % 16)]
  }

  /** The %X rendering of a natural number: upper case, no leading zeros. */
  function NatToHex(n: nat): (s: string)
    ensures |s| > 0 && forall i :: 0 <= i < |s| ==> IsHexDigit(s[i]) && !('a' <= s[i] <= 'f')
  {
    if n < 16 then [HexDigitUpper(n)] else NatToHex(n / 16) + [HexDigitUpper(n % 16)]
  }

  /** The value of a string of hexadecimal digits, most significant first. */
  function HexDigitsValue(s: string): nat
    requires forall i :: 0 <= i < |s| ==> IsHexDigit(s[i])
  {
    if s == [] then 0 else 16 * HexDigitsValue(s[..|s| - 1]) + HexValue(s[|s| - 1])
  }

  /** The %X rendering reads back as the number. */
  lemma {:induction false} HexDigitsValueOfHex(n: nat)
    ensures HexDigitsValue(NatToHex(n)) == n
  {
    if n >= 16 {
      var s := NatToHex(n);
      assert s[..|s| - 1] == NatToHex(n / 16);
      HexDigitsValueOfHex(n / 16);
    }
  }

  /**
   * strtoul(tmp, NULL, 16) on the buffer tmp = [c1, c2, NUL], narrowed to uint8_t: an optional
   * sign and up to two hex digits.  "0x" alone reads as 0, as the lone '0' does.
   */
  function HexPairValue(c1: char, c2: char): (b: nat)
    ensures b < 256
  {
    if IsHexDigit(c1) then (if IsHexDigit(c2) then 16 * HexValue(c1) + HexValue(c2) else HexValue(c1))
    else if c1 == '+' && IsHexDigit(c2) then HexValue(c2)
    else if c1 == '-' && IsHexDigit(c2) then (256 - HexValue(c2)) % 256
    else 0
  }

  /** Reading back a %02X rendering gives the byte. */
  lemma HexPairOfHex2(b: nat)
    requires b < 256
    ensures HexPairValue(Hex2(b)[0], Hex2(b)[1]) == b
  {
  }
}

=== FILE: dispatch.dfy ===
/**
 * The command processor: a received text goes through its channel's transport, the command it
 * names is looked up, and the text after the name decides between the query, test and execute
 * forms; an executed command has its arguments decoded and checked, its handler called and its
 * status reported.  Responses go to the channel's response handler, here a trace of frames.
 */
module Dispatch {
  import opened Wrappers
  import opened Text
  import opened Decimal
  import opened PasrTypes
  import opened PasrStore
  import opened CmdTypes
  import opened Framer
  import opened Registry

  /** AT_CMD_HDR, the header the UART transport strips. */
  const Hdr: string := "AT+"

  /**
   * at_cmd_xfer_uart: text of at most |Hdr| characters passes only as the two characters "AT",
   * leaving nothing to process; longer text loses its first |Hdr| characters, unread.
   */
  function XferUart(data: string): (r: Option<string>)
    ensures r.Some? && |data| <= |Hdr| ==> r.value == []
  {
    if |data| <= |Hdr| then
      if |data| == |Hdr| - 1 && data[..|Hdr| - 1] == Hdr[..|Hdr| - 1] then Some([]) else None
    else Some(data[|Hdr|..])
  }

  /** Any three-character header in front of a command is removed, whatever it holds. */
  lemma UartStripsHeader(header: string, s: string)
    requires |header| == |Hdr| && s != []
    ensures XferUart(header + s) == Some(s)
  {
    assert (header + s)[|Hdr|..] == s;
  }

  /** Short text is accepted exactly when it is "AT". */
  lemma UartShortText(data: string)
    requires |data| <= |Hdr|
    ensures XferUart(data).Some? <==> data == "AT"
  {
    if |data| == 2 && data[..2] == Hdr[..2] {
      assert data == data[..2];
    }
  }

  /** The transport of a channel: none, the UART stripper, or the application's function. */
  function Transfer(xfer: Transport, data: string): Option<string>
  {
    match xfer
    case Direct => Some(data)
    case Uart => XferUart(data)
    case Custom(f) => f(data)
  }

  /**
   * at_send_status: OK for no error; for the specific error the command's name with the
   * application error in upper-case hex (a uint16_t), then ERR; otherwise ERR and the code.
   */
  function StatusFrames(err: CmdErr, name: string, appErr: nat): (fs: seq<string>)
    ensures |fs| == if err == SpecificErr then 2 else 1
  {
    if err == NoError then [ConcatFrame(All, "OK")]
    else if err == SpecificErr then
      [ConcatFrame(All, "+" + name + ":" + NatToHex(appErr % 0x1_0000)), ConcatFrame(All, "ERR")]
    else [ConcatFrame(All, "ERR:" + NatToDecimal(err.Code()))]
  }

  /** The status lines as sent: each part framed by "\r\n". */
  lemma StatusText(err: CmdErr, name: string, appErr: nat)
    requires err == SpecificErr ==> |name| + |NatToHex(appErr % 0x1_0000)| <= 250
    ensures err == NoError ==> StatusFrames(err, name, appErr) == [Crlf + "OK" + Crlf]
    ensures err == SpecificErr ==>
      StatusFrames(err, name, appErr) == [Crlf + ("+" + name + ":" + NatToHex(appErr % 0x1_0000)) + Crlf, Crlf + "ERR" + Crlf]
    ensures err != NoError && err != SpecificErr ==>
      StatusFrames(err, name, appErr) == [Crlf + ("ERR:" + NatToDecimal(err.Code())) + Crlf]
  {
    if err == NoError {
      FrameFits(All, "OK");
    } else if err == SpecificErr {
      FrameFits(All, "+" + name + ":" + NatToHex(appErr % 0x1_0000));
      FrameFits(All, "ERR");
    } else {
      assert |NatToDecimal(err.Code())| == 1;
      FrameFits(All, "ERR:" + NatToDecimal(err.Code()));
    }
  }

  /** at_send_status, each frame assembled by at_cmd_resp_concat. */
  method SendStatus(err: CmdErr, name: string, appErr: nat) returns (fs: seq<string>)
    ensures fs == StatusFrames(err, name, appErr)
  {
    if err == NoError {
      var ok := RespConcat(All, "OK");
      fs := [ok];
    } else if err == SpecificErr {
      var app := RespConcat(All, "+" + name + ":" + NatToHex(appErr % 0x1_0000));
      var e := RespConcat(All, "ERR");
      fs := [app, e];
    } else {
      var e := RespConcat(All, "ERR:" + NatToDecimal(err.Code()));
      fs := [e];
    }
  }

  /** at_cmd_list_print: one "+NAME:TEST" frame per registered command, prefix and data only. */
  function ListFrames(cmds: seq<Cmd>): (fs: seq<string>)
  {
    if cmds == [] then []
    else [ConcatFrame(PrefixData, "+" + cmds[0].name + ":" + cmds[0].test)] + ListFrames(cmds[1..])
  }

  /** Frame i of the list names command i, after "\r\n" and without a postfix. */
  lemma {:induction false} ListFrameAt(cmds: seq<Cmd>, i: nat)
    requires i < |cmds| && |cmds[i].name| + |cmds[i].test| <= 250
    ensures |ListFrames(cmds)| == |cmds|
    ensures ListFrames(cmds)[i] == Crlf + ("+" + cmds[i].name + ":" + cmds[i].test)
  {
    if i == 0 {
      FrameFits(PrefixData, "+" + cmds[0].name + ":" + cmds[0].test);
      ListLength(cmds[1..]);
    } else {
      ListFrameAt(cmds[1..], i - 1);
    }
  }

  lemma {:induction false} ListLength(cmds: seq<Cmd>)
    ensures |ListFrames(cmds)| == |cmds|
  {
    if cmds != [] {
      ListLength(cmds[1..]);
    }
  }

  /** Every decoded argument is acceptable: decoded or left empty. */
  predicate Admissible(args: seq<Tlv>)
  {
    forall i :: 0 <= i < |args| ==> args[i].status == Ok || args[i].status == EmptyData
  }

  /**
   * The verdict at_cmd_check_args reaches: a count other than the expected one is WrongArguCnt
   * and becomes the argument count; otherwise an argument neither decoded nor empty is
   * WrongArguTypeOrRange.
   */
  function ArgsVerdict(argc: nat, args: seq<Tlv>): (CmdErr, nat)
  {
    if |args| != argc then (WrongArguCnt, |args|)
    else if Admissible(args) then (NoError, argc)
    else (WrongArguTypeOrRange, argc)
  }

  /** at_cmd_check_args: the count, then the statuses up to the first unacceptable one. */
  method CheckArgs(argc: nat, args: seq<Tlv>) returns (err: CmdErr, n: nat)
    ensures (err, n) == ArgsVerdict(argc, args)
  {
    err := NoError;
    n := argc;
    var num := |args|;
    if num != argc {
      return WrongArguCnt, num;
    }
    var i := 0;
    while i < num
      invariant 0 <= i <= num
      invariant forall j :: 0 <= j < i ==> args[j].status == Ok || args[j].status == EmptyData
    {
      if args[i].status != Ok && args[i].status != EmptyData {
        err := WrongArguTypeOrRange;
        break;
      }
      i := i + 1;
    }
  }

  /**
   * A handler run: what it leaves in its record and the debug flag after it.  LISTCMDS lists
   * the commands on a query without error; DEBUG takes its u8 argument as the new flag on an
   * execution without error; an application handler is its function.
   */
  function RunHandler(cmds: seq<Cmd>, h: Handler, p: Param, debug: bool): (Verdict, bool)
  {
    match h
    case ListCmds =>
      (Verdict(p.err, p.appErr, if p.kind == Query && p.err == NoError then ListFrames(cmds) else []), debug)
    case Debug =>
      var takes := p.kind == Exec && p.err == NoError && |p.args| > 0 && p.args[0].kind == U8;
      (Verdict(p.err, p.appErr, []), if takes then p.args[0].Num() != 0 else debug)
    case App(run) => (run(p), debug)
  }

  /**
   * at_call_handler: an execution has its arguments checked, a residue turning the error into
   * WrongArguCnt, and its status sent after the handler's own frames; a query calls the
   * handler with no error and sends nothing more.
   */
  function Call(cmds: seq<Cmd>, cmd: Cmd, kind: CmdType, args: seq<Tlv>, ch: nat, residue: bool, debug: bool): (seq<string>, bool)
  {
    if kind == Exec then
      var (err, argc) := ArgsVerdict(cmd.paramNum, args);
      var p := Param(Exec, if residue then WrongArguCnt else err, argc, args, ch, cmd.name, 0);
      var (v, d) := RunHandler(cmds, cmd.handler, p, debug);
      (v.out + StatusFrames(v.err, cmd.name, v.appErr), d)
    else
      var (v, d) := RunHandler(cmds, cmd.handler, Param(kind, NoError, cmd.paramNum, [], ch, cmd.name, 0), debug);
      (v.out, d)
  }

  /** at_call_handler, with the argument check and the status as the C code runs them. */
  method CallHandler(cmds: seq<Cmd>, cmd: Cmd, kind: CmdType, args: seq<Tlv>, ch: nat, residue: bool, debug: bool)
    returns (frames: seq<string>, dbg: bool)
    ensures (frames, dbg) == Call(cmds, cmd, kind, args, ch, residue, debug)
  {
    if kind == Exec {
      var err, argc := CheckArgs(cmd.paramNum, args);
      if residue {
        err := WrongArguCnt;
      }
      var run := RunHandler(cmds, cmd.handler, Param(Exec, err, argc, args, ch, cmd.name, 0), debug);
      var v := run.0;
      dbg := run.1;
      var status := SendStatus(v.err, cmd.name, v.appErr);
      frames := v.out + status;
    } else {
      var run := RunHandler(cmds, cmd.handler, Param(kind, NoError, cmd.paramNum, [], ch, cmd.name, 0), debug);
      frames, dbg := run.0.out, run.1;
    }
  }

  /** What processing one text leaves: whether it was accepted, the frames sent, the debug flag. */
  datatype Outcome = Outcome(accepted: bool, frames: seq<string>, debug: bool)

  /**
   * The part of at_cmd_proc after the lookup, on the text s that names cmd: the bare name is
   * not supported; "?" is a query, answered OK; "=?" sends the test text and OK; anything else
   * is an execution whose arguments are the text one character after the name.
   */
  function Command(cmds: seq<Cmd>, cmd: Cmd, debug: bool, ch: nat, s: string): Outcome
    requires |cmd.name| <= |s|
  {
    var clen := |cmd.name|;
    if |s| == clen then Outcome(false, StatusFrames(NotSupport, cmd.name, 0), debug)
    else if |s| == clen + 1 && s[clen] == '?' then
      var (fs, d) := Call(cmds, cmd, Query, [], ch, false, debug);
      Outcome(true, fs + StatusFrames(NoError, cmd.name, 0), debug := d)
    else if |s| == clen + 2 && s[clen] == '=' && s[clen + 1] == '?' then
      Outcome(true, [ConcatFrame(All, "+" + cmd.name + ":" + cmd.test)] + StatusFrames(NoError, cmd.name, 0), debug)
    else
      var (status, args) := ValidateSpec(0, s[clen + 1..], cmd.fmt);
      var (fs, d) := Call(cmds, cmd, Exec, args, ch, status == MoreData, debug);
      Outcome(true, fs, d)
  }

  /**
   * at_cmd_proc: nothing for empty data; a transport that refuses the data is not supported,
   * one that leaves nothing answers OK; an unknown name is not supported.
   */
  function Process(cmds: seq<Cmd>, xfer: Transport, debug: bool, ch: nat, data: string): Outcome
  {
    if data == [] then Outcome(false, [], debug)
    else match Transfer(xfer, data)
      case None => Outcome(false, StatusFrames(NotSupport, [], 0), debug)
      case Some(s) =>
        if s == [] then Outcome(true, StatusFrames(NoError, [], 0), debug)
        else match Resolve(cmds, s)
          case None => Outcome(false, StatusFrames(NotSupport, [], 0), debug)
          case Some(i) => Command(cmds, cmds[i], debug, ch, s)
  }

  /** The frames a channel's response handler receives: all of them when it has one, else none. */
  function Emitted(c: Channel, ch: nat, frames: seq<string>): (r: seq<(nat, string)>)
    ensures |r| == if c.resp then |frames| else 0
    ensures forall i :: 0 <= i < |r| ==> r[i] == (ch, frames[i])
  {
    if c.resp then seq(|frames|, i requires 0 <= i < |frames| => (ch, frames[i])) else []
  }

  /** The transport a channel gets for a requested one: the sentinel selects the UART stripper. */
  function Install(x: XferRequest): Transport
  {
    match x
    case NullXfer => Direct
    case DftXferUart => Uart
    case XferFn(f) => Custom(f)
  }

  /**
   * The AT core's state: the sorted command table, the channel pool at_ctx, the parameter
   * store, the debug flag at_cmd_dbg, and the frames handed to the response handlers so far.
   */
  class Dispatcher {
    const cmds: seq<Cmd>
    const channels: array<Channel>
    const store: ParamStore
    var debug: bool
    var sent: seq<(nat, string)>

    /** The table is sorted, the pool has XferMaxNum channels, and the store is free between commands. */
    ghost predicate Valid()
      reads this, store
    {
      Sorted(cmds) && channels.Length == XferMaxNum && store.Valid() && store.count == 0
    }

    constructor (cmds: seq<Cmd>)
      requires Sorted(cmds)
      ensures Valid() && this.cmds == cmds && !debug && sent == []
      ensures forall i :: 0 <= i < XferMaxNum ==> channels[i] == Channel(Direct, false)
    {
      this.cmds := cmds;
      channels := new Channel[XferMaxNum](_ => Channel(Direct, false));
      store := new ParamStore();
      debug := false;
      sent := [];
    }

    /**
     * at_cmd_alloc: the lowest channel without a response handler takes the requested
     * transport and handler; InvalidCh when every channel has one.
     */
    method Alloc(ctx: AllocCtx) returns (ch: nat)
      requires Valid()
      modifies channels
      ensures Valid()
      ensures ch == InvalidCh <==> forall j :: 0 <= j < XferMaxNum ==> old(channels[j]).resp
      ensures ch != InvalidCh ==> ch < XferMaxNum && !old(channels[ch]).resp
      ensures ch != InvalidCh ==> forall j :: 0 <= j < ch ==> old(channels[j]).resp
      ensures ch != InvalidCh ==> channels[ch] == Channel(Install(ctx.xfer), ctx.resp)
      ensures forall j :: 0 <= j < XferMaxNum && j != ch ==> channels[j] == old(channels[j])
    {
      ch := 0;
      while ch < XferMaxNum
        invariant 0 <= ch <= XferMaxNum
        invariant forall j :: 0 <= j < ch ==> channels[j].resp
      {
        if !channels[ch].resp {
          channels[ch] := Channel(Install(ctx.xfer), ctx.resp);
          return ch;
        }
        ch := ch + 1;
      }
      return InvalidCh;
    }

    /** at_cmd_resp_data for each frame: delivered only when the channel has a response handler. */
    method Send(ch: nat, frames: seq<string>)
      requires ch < channels.Length
      modifies this
      ensures sent == old(sent) + Emitted(channels[ch], ch, frames) && debug == old(debug)
    {
      if channels[ch].resp {
        sent := sent + Emitted(channels[ch], ch, frames);
      }
    }

    /** at_cmd_resp_raw: the data handed to the channel's response handler as it is, unframed. */
    method RespRaw(ch: nat, data: string)
      requires ch < channels.Length
      modifies this
      ensures sent == old(sent) + Emitted(channels[ch], ch, [data]) && debug == old(debug)
    {
      Send(ch, [data]);
    }

    /** at_cmd_proc: process one received text on channel ch. */
    method Proc(ch: nat, data: string) returns (accepted: bool)
      requires Valid() && ch < XferMaxNum
      modifies this, store, store.slots
      ensures Valid()
      ensures var o := Process(cmds, channels[ch].xfer, old(debug), ch, data);
        accepted == o.accepted && debug == o.debug && sent == old(sent) + Emitted(channels[ch], ch, o.frames)
    {
      if data == [] {
        return false;
      }
      var astr := Transfer(channels[ch].xfer, data);
      var frames: seq<string>;
      if astr.None? {
        frames := SendStatus(NotSupport, [], 0);
        accepted := false;
      } else if astr.value == [] {
        frames := SendStatus(NoError, [], 0);
        accepted := true;
      } else {
        var idx := IsAvailable(cmds, astr.value);
        if idx.None? {
          frames := SendStatus(NotSupport, [], 0);
          accepted := false;
        } else {
          accepted, frames := Classify(ch, cmds[idx.value], astr.value);
        }
      }
      Send(ch, frames);
    }

    /** The classification of at_cmd_proc and the execution path, on the text s naming cmd. */
    method Classify(ch: nat, cmd: Cmd, s: string) returns (accepted: bool, frames: seq<string>)
      requires Valid() && |cmd.name| <= |s|
      modifies this, store, store.slots
      ensures Valid() && sent == old(sent)
      ensures var o := Command(cmds, cmd, old(debug), ch, s);
        accepted == o.accepted && frames == o.frames && debug == o.debug
    {
      var clen := |cmd.name|;
      if |s| == clen {
        frames := SendStatus(NotSupport, cmd.name, 0);
        return false, frames;
      }
      if |s| == clen + 1 && s[clen] == '?' {
        var fs;
        fs, debug := CallHandler(cmds, cmd, Query, [], ch, false, debug);
        var ok := SendStatus(NoError, cmd.name, 0);
        return true, fs + ok;
      }
      if |s| == clen + 2 && s[clen] == '=' && s[clen + 1] == '?' {
        var test := RespConcat(All, "+" + cmd.name + ":" + cmd.test);
        var ok := SendStatus(NoError, cmd.name, 0);
        return true, [test] + ok;
      }
      var status := store.Validate(s[clen + 1..], cmd.fmt);
      var args := store.Contents();
      frames, debug := CallHandler(cmds, cmd, Exec, args, ch, status == MoreData, debug);
      store.Clear();
      accepted := true;
    }
  }
}

=== FILE: framer.dfy ===
/**
 * The response framer: a response is assembled in a buffer of RespLen + 1 characters from an
 * optional prefix, the payload and an optional postfix, and the length reported with it is
 * clamped to RespLen.
 */
module Framer {
  import opened Wrappers
  import opened Text
  import opened Decimal
  import opened PasrTypes
  import opened PasrDecode
  import opened CmdTypes

  /** AT_CMD_PREFIX and AT_CMD_POSTFIX. */
  const Crlf: string := "\r\n"

  const Nul: char := 0 as char

  /** The prefix a flag asks for. */
  function Prefix(flag: RespFlag): (s: string)
    ensures |s| <= 2
  {
    if flag.prefix then Crlf else []
  }

  /** The response a flag and payload call for: prefix, payload and postfix, each if selected. */
  function Intended(flag: RespFlag, payload: string): string
  {
    Prefix(flag) + (if flag.data then payload else []) + (if flag.postfix then Crlf else [])
  }

  /**
   * at_cmd_resp_concat on an already rendered payload: the characters the response handler
   * receives.  vsnprintf writes what fits and a NUL after it, and reports the full payload
   * length; the postfix is written only when it fits in RespLen, but is counted either way, and
   * the count is clamped to RespLen.
   */
  function ConcatFrame(flag: RespFlag, payload: string): (out: string)
    ensures |out| <= RespLen
  {
    var pre := Prefix(flag);
    if !flag.data then (if flag.postfix then pre + Crlf else pre)
    else
      var end := |pre| + |payload|;
      if flag.postfix && end + 2 <= RespLen then pre + payload + Crlf
      else if !flag.postfix && end <= RespLen then pre + payload
      else if end < RespLen then pre + payload + [Nul]
      else (pre + payload)[..RespLen]
  }

  /** A response that fits is sent whole: with at_all, "\r\n" + payload + "\r\n". */
  lemma FrameFits(flag: RespFlag, payload: string)
    requires |Intended(flag, payload)| <= RespLen
    ensures ConcatFrame(flag, payload) == Intended(flag, payload)
    ensures flag == All ==> ConcatFrame(flag, payload) == Crlf + payload + Crlf
    ensures flag == All ==> |ConcatFrame(flag, payload)| == |payload| + 4
  {
  }

  /**
   * A response that does not fit is cut to its first RespLen characters, except when prefix and
   * payload end one short of RespLen and a postfix is asked for: then the postfix is skipped
   * and the reported characters end with the NUL that vsnprintf wrote.
   */
  lemma FrameTruncates(flag: RespFlag, payload: string)
    requires |Intended(flag, payload)| > RespLen
    ensures flag.data
    ensures !(flag.postfix && |Prefix(flag)| + |payload| == RespLen - 1) ==>
      ConcatFrame(flag, payload) == Intended(flag, payload)[..RespLen]
    ensures flag.postfix && |Prefix(flag)| + |payload| == RespLen - 1 ==>
      ConcatFrame(flag, payload) == Intended(flag, payload)[..RespLen - 1] + [Nul]
  {
    var pre := Prefix(flag);
    if flag.postfix && |pre| + |payload| == RespLen - 1 {
      assert Intended(flag, payload)[..RespLen - 1] == pre + payload;
    } else if flag.postfix {
      assert Intended(flag, payload) == (pre + payload) + Crlf;
    }
  }

  /** strcpy(&buf[offset], s): the characters of s and a terminating NUL. */
  method Strcpy(buf: array<char>, offset: nat, s: string)
    requires offset + |s| < buf.Length
    modifies buf
    ensures buf[..offset] == old(buf[..offset])
    ensures buf[offset..offset + |s|] == s && buf[offset + |s|] == Nul
    ensures buf[offset + |s| + 1..] == old(buf[offset + |s| + 1..])
  {
    forall j | 0 <= j < |s| {
      buf[offset + j] := s[j];
    }
    buf[offset + |s|] := Nul;
  }

  /**
   * snprintf(&buf[offset], size, "%s", s): at most size - 1 characters of s and a NUL, nothing
   * at all when size is 0; the result is the length of s whatever was written.
   */
  method Snprintf(buf: array<char>, offset: nat, size: nat, s: string) returns (n: nat)
    requires offset + size <= buf.Length
    modifies buf
    ensures n == |s|
    ensures size == 0 ==> buf[..] == old(buf[..])
    ensures buf[..offset] == old(buf[..offset])
    ensures size > 0 ==> var k := Min(|s|, size - 1);
      buf[offset..offset + k] == s[..k] && buf[offset + k] == Nul
    ensures size > 0 ==> var k := Min(|s|, size - 1);
      buf[offset + k + 1..] == old(buf[offset + k + 1..])
  {
    if size > 0 {
      var k := Min(|s|, size - 1);
      forall j | 0 <= j < k {
        buf[offset + j] := s[j];
      }
      buf[offset + k] := Nul;
    }
    n := |s|;
  }

  /** at_cmd_prefix: the prefix at the start of the buffer, and the offset after it. */
  method WritePrefix(buf: array<char>, flag: RespFlag) returns (offset: nat)
    requires buf.Length == RespLen + 1
    modifies buf
    ensures offset == |Prefix(flag)|
    ensures buf[..offset] == Prefix(flag)
    ensures flag.prefix ==> buf[offset] == Nul && buf[offset + 1..] == old(buf[offset + 1..])
    ensures !flag.prefix ==> buf[..] == old(buf[..])
  {
    offset := 0;
    if flag.prefix {
      Strcpy(buf, 0, Crlf);
      offset := |Crlf|;
    }
  }

  /**
   * at_cmd_postfix: the postfix when it fits in RespLen, then the offset it counts, clamped to
   * RespLen.
   */
  method WritePostfix(buf: array<char>, offset: nat, flag: RespFlag) returns (r: nat)
    requires buf.Length == RespLen + 1
    modifies buf
    ensures buf[..Min(offset, RespLen)] == old(buf[..Min(offset, RespLen)])
    ensures r == Min(offset + (if flag.postfix then |Crlf| else 0), RespLen)
    ensures flag.postfix && offset + |Crlf| <= RespLen ==> buf[offset..offset + |Crlf|] == Crlf
    ensures flag.postfix && offset + |Crlf| <= RespLen ==>
      buf[offset + |Crlf|] == Nul && buf[offset + |Crlf| + 1..] == old(buf[offset + |Crlf| + 1..])
    ensures !(flag.postfix && offset + |Crlf| <= RespLen) ==> buf[..] == old(buf[..])
  {
    r := offset;
    if flag.postfix {
      if offset + |Crlf| <= RespLen {
        Strcpy(buf, offset, Crlf);
      }
      r := r + |Crlf|;
    }
    if r > RespLen {
      r := RespLen;
    }
  }

  /** at_cmd_resp_concat: assemble the response in a RespLen + 1 buffer and report it. */
  method RespConcat(flag: RespFlag, payload: string) returns (out: string)
    ensures out == ConcatFrame(flag, payload)
  {
    var buffer := new char[RespLen + 1];
    var offset := WritePrefix(buffer, flag);
    ghost var pre := Prefix(flag);
    ghost var k := Min(|payload|, RespLen - |pre|);
    if flag.data {
      var elen := RespLen + 1 - offset;
      var rlen := Snprintf(buffer, offset, elen, payload);
      offset := offset + rlen;
      assert buffer[..|pre| + k + 1] == pre + payload[..k] + [Nul] by {
        assert buffer[..|pre|] == pre;
        assert buffer[|pre|..|pre| + k] == payload[..k];
      }
    }
    ghost var before := buffer[..];
    var end := WritePostfix(buffer, offset, flag);
    out := buffer[..end];
    if flag.data {
      assert Shows(before, pre + payload) by {
        assert Min(|pre + payload|, RespLen) == |pre| + k;
        assert (pre + payload)[..|pre| + k] == pre + payload[..k];
        assert before[..|pre| + k] == before[..|pre| + k + 1][..|pre| + k];
        assert before[|pre| + k] == before[..|pre| + k + 1][|pre| + k];
      }
      FrameMatches(flag, payload, before, buffer[..], offset, end);
    } else if flag.postfix {
      assert out == buffer[..offset] + buffer[offset..offset + |Crlf|];
    }
  }

  /** The %02X rendering of the bytes overruns the buffer: some snprintf gets a negative size. */
  predicate Overrun(flag: RespFlag, n: nat)
  {
    n > 0 && |Prefix(flag)| + 2 * (n - 1) > RespLen + 1
  }

  /** With the "\r\n" prefix 128 bytes still fit and 129 overrun; without it 129 fit and 130 overrun. */
  lemma OverrunThreshold(flag: RespFlag, n: nat)
    ensures Overrun(flag, n) <==> n >= (if flag.prefix then 129 else 130)
  {
  }

  /**
   * at_cmd_resp_array: every byte rendered by its own snprintf("%02X") into what is left of the
   * buffer, the offset advancing by 2 whether or not the digits fit.  None when a size would
   * go negative and snprintf would write outside the buffer; otherwise the response is the one
   * at_cmd_resp_concat gives for the whole rendering, the data part being always present.
   */
  method RespArray(flag: RespFlag, bytes: seq<Byte>) returns (out: Option<string>)
    ensures out.None? <==> Overrun(flag, |bytes|)
    ensures out.Some? ==> out.value == ConcatFrame(flag.(data := true), HexString(bytes))
  {
    var buffer := new char[RespLen + 1];
    var offset := WritePrefix(buffer, flag);
    var fits;
    offset, fits := WriteHexBytes(buffer, offset, flag, bytes);
    if !fits {
      return None;
    }
    ghost var before := buffer[..];
    var end := WritePostfix(buffer, offset, flag);
    out := Some(buffer[..end]);
    FrameMatches(flag, HexString(bytes), before, buffer[..], offset, end);
  }

  /**
   * The buffer shows text: its first characters, up to RespLen of them, are those of text, and
   * a NUL follows them unless text is empty.
   */
  ghost predicate Shows(buf: seq<char>, text: string)
  {
    && |buf| == RespLen + 1
    && buf[..Min(|text|, RespLen)] == text[..Min(|text|, RespLen)]
    && (text != [] ==> buf[Min(|text|, RespLen)] == Nul)
  }

  /**
   * The loop of at_cmd_resp_array, after the prefix: it stops (fits false) at the first byte
   * whose snprintf would get a negative size, and otherwise leaves the prefix and the rendering
   * in the buffer as far as they fit, with a NUL after them.
   */
  method WriteHexBytes(buffer: array<char>, start: nat, flag: RespFlag, bytes: seq<Byte>) returns (offset: nat, fits: bool)
    requires buffer.Length == RespLen + 1 && start == |Prefix(flag)| && Shows(buffer[..], Prefix(flag))
    modifies buffer
    ensures fits <==> !Overrun(flag, |bytes|)
    ensures fits ==> offset == |Prefix(flag)| + |HexString(bytes)| && Shows(buffer[..], Prefix(flag) + HexString(bytes))
  {
    ghost var pre := Prefix(flag);
    offset := start;
    var i := 0;
    while i < |bytes|
      invariant 0 <= i <= |bytes| && offset == |pre| + 2 * i
      invariant !Overrun(flag, i)
      invariant Shows(buffer[..], pre + HexString(bytes[..i]))
    {
      var elen := RespLen + 1 - offset;
      if elen < 0 {
        return offset, false;
      }
      assert elen > 0;
      var rlen := WriteByte(buffer, offset, elen, pre, bytes, i);
      offset := offset + rlen;
      i := i + 1;
    }
    assert bytes[..i] == bytes;
    fits := true;
  }

  /** One turn of the array loop: snprintf("%02X") of byte i into the elen characters left. */
  method WriteByte(buffer: array<char>, offset: nat, elen: nat, ghost pre: string, bytes: seq<Byte>, i: nat) returns (rlen: nat)
    requires buffer.Length == RespLen + 1 && offset + elen == RespLen + 1 && elen > 0 && i < |bytes|
    requires offset == |pre| + 2 * i && Shows(buffer[..], pre + HexString(bytes[..i]))
    modifies buffer
    ensures rlen == 2 && Shows(buffer[..], pre + HexString(bytes[..i + 1]))
  {
    ghost var written := buffer[..];
    ghost var done := pre + HexString(bytes[..i]);
    assert written[..offset] == done;
    rlen := Snprintf(buffer, offset, elen, Hex2(bytes[i]));
    WriteStep(written, buffer[..], done, Hex2(bytes[i]), offset, elen);
    StepRendering(pre, bytes, i);
  }

  /**
   * One snprintf of the array loop: the buffer held the rendering so far; it then holds the
   * rendering with the new digits, as far as they fit, and a NUL after them.
   */
  lemma WriteStep(before: seq<char>, after: seq<char>, done: string, h: string, offset: nat, size: nat)
    requires |before| == |after| == RespLen + 1 && offset + size == RespLen + 1 && size > 0
    requires |done| == offset && before[..offset] == done && |h| == 2
    requires after[..offset] == before[..offset]
    requires after[offset..offset + Min(|h|, size - 1)] == h[..Min(|h|, size - 1)]
    requires after[offset + Min(|h|, size - 1)] == Nul
    ensures after[..Min(offset + |h|, RespLen)] == (done + h)[..Min(offset + |h|, RespLen)]
    ensures after[Min(offset + |h|, RespLen)] == Nul
  {
    var k := Min(|h|, size - 1);
    assert offset + k == Min(offset + |h|, RespLen);
    assert after[..offset + k] == after[..offset] + after[offset..offset + k];
  }

  /** Rendering one more byte appends its two digits. */
  lemma StepRendering(pre: string, bytes: seq<Byte>, i: nat)
    requires i < |bytes|
    ensures pre + HexString(bytes[..i + 1]) == pre + HexString(bytes[..i]) + Hex2(bytes[i])
  {
    assert bytes[..i + 1][..i] == bytes[..i];
  }

  /**
   * A buffer holding prefix and payload up to RespLen characters, with a NUL after them, reads
   * as the concatenated response once the postfix is handled.
   */
  lemma FrameMatches(flag: RespFlag, p: string, before: seq<char>, after: seq<char>, offset: nat, end: nat)
    requires |before| == |after| == RespLen + 1
    requires offset == |Prefix(flag)| + |p|
    requires Shows(before, Prefix(flag) + p)
    requires after[..Min(offset, RespLen)] == before[..Min(offset, RespLen)]
    requires end == Min(offset + (if flag.postfix then |Crlf| else 0), RespLen)
    requires flag.postfix && offset + |Crlf| <= RespLen ==> after[offset..offset + |Crlf|] == Crlf
    requires !(flag.postfix && offset + |Crlf| <= RespLen) ==> after == before
    ensures after[..end] == ConcatFrame(flag.(data := true), p)
  {
    var pre := Prefix(flag);
    var f := flag.(data := true);
    assert Prefix(f) == pre;
    if flag.postfix && offset + |Crlf| <= RespLen {
      assert after[..end] == after[..offset] + after[offset..offset + |Crlf|];
    } else if !flag.postfix && offset <= RespLen {
      assert after[..end] == before[..offset];
    } else if offset < RespLen {
      assert after[..end] == before[..offset] + [before[offset]];
    } else {
      assert after[..end] == before[..RespLen];
    }
  }
}

=== FILE: pasr_decode.dfy ===
/**
 * The value decoders of the AT parameter parser: one comma-separated field of the input text is
 * decoded into the TLV that the format compiler prepared for it.
 *
 * The C decoders receive the whole remaining input and stop at the first ',' or NUL; the model
 * hands them the field itself (see ConvertStopsAtComma for why the two agree).
 */
module PasrDecode {
  import opened Wrappers
  import opened Text
  import opened Decimal
  import opened PasrTypes

  /** The number a numeric field holds: strtol for the signed kinds, strtoul for the unsigned ones, stored in the kind's field. */
  function FieldNumber(k: Kind, field: string): (v: int)
    requires k.IsNumeric()
    ensures k.Lowest() <= v <= k.Highest()
  {
    Narrow(k, if k.IsSigned() then Strtol(field) else Strtoul(field))
  }

  /**
   * at_pasr_input_{i8,u8,i16,u16,i32,u32}: a field the conversion consumes entirely records the
   * kind's size as its length and is Ok inside the bounds, RangeExceed outside them; any other
   * field is WrongType with the value reset to 0 (the 32-bit signed decoder keeps the number it
   * read).  The range check applies to the value already narrowed to the kind's field.
   */
  function DecodeNumber(t: Tlv, field: string): (r: Tlv)
    requires t.kind.IsNumeric()
    ensures r.kind == t.kind && r.min == t.min && r.max == t.max && r.value.Number?
    ensures r.status == Ok <==> Convert(field).end == |field| && r.min <= r.Num() <= r.max
    ensures r.status == RangeExceed <==> Convert(field).end == |field| && !(r.min <= r.Num() <= r.max)
    ensures r.status == WrongType <==> Convert(field).end != |field|
    ensures r.status == WrongType ==> r.length == t.length && (r.kind != I32 ==> r.Num() == 0)
    ensures r.status == WrongType && r.kind == I32 ==> r.Num() == FieldNumber(I32, field)
    ensures r.status != WrongType ==> r.length == t.kind.Size() && r.Num() == FieldNumber(t.kind, field)
  {
    var v := FieldNumber(t.kind, field);
    if Convert(field).end == |field| then
      t.(length := t.kind.Size(), status := if t.min <= v <= t.max then Ok else RangeExceed, value := Number(v))
    else
      t.(status := WrongType, value := Number(if t.kind == I32 then v else 0))
  }

  /** The bytes of the first n hexadecimal pairs of s, each read by strtoul in base 16 and stored in a uint8_t. */
  function HexBytes(s: string, n: nat): (bytes: seq<Byte>)
    requires 2 * n <= |s|
    ensures |bytes| == n
    ensures forall i :: 0 <= i < n ==> bytes[i] == HexPairValue(s[2 * i], s[2 * i + 1])
  {
    if n == 0 then [] else HexBytes(s, n - 1) + [HexPairValue(s[2 * n - 2], s[2 * n - 1])]
  }

  /** The number of characters a field contributes, after the uint16_t in which the decoders keep it. */
  function Len16(n: nat): (r: nat)
    ensures r < 0x1_0000 && (n < 0x1_0000 ==> r == n)
  {
    n % 0x1_0000
  }

  /**
   * at_pasr_input_array: every two characters are one byte; the byte count is checked against
   * the bounds, and a field of odd length is InvalidData whatever the count.
   */
  function DecodeArray(t: Tlv, field: string): (r: Tlv)
    ensures r.kind == t.kind && r.min == t.min && r.max == t.max
    ensures r.length == Len16(|field| / 2) && r.value == Octets(HexBytes(field, r.length))
    ensures r.status == InvalidData <==> |field| % 2 == 1
    ensures r.status == Ok <==> |field| % 2 == 0 && r.min <= r.length <= r.max
    ensures r.status in {Ok, RangeExceed, InvalidData}
  {
    var n := Len16(|field| / 2);
    var status := if t.min <= n <= t.max then Ok else RangeExceed;
    t.(length := n, status := if |field| % 2 == 1 then InvalidData else status, value := Octets(HexBytes(field, n)))
  }

  /** at_pasr_input_string: the characters of the field, their count checked against the bounds. */
  function DecodeString(t: Tlv, field: string): (r: Tlv)
    ensures r.kind == t.kind && r.min == t.min && r.max == t.max
    ensures r.length == Len16(|field|) && r.value == Chars(field[..r.length])
    ensures r.status == Ok <==> r.min <= r.length <= r.max
    ensures r.status in {Ok, RangeExceed}
  {
    var n := Len16(|field|);
    t.(length := n, status := if t.min <= n <= t.max then Ok else RangeExceed, value := Chars(field[..n]))
  }

  /** at_pasr_input_fn[kind]: the decoder of the TLV's kind; the unknown kind reads a string and reports WrongType. */
  function Decode(t: Tlv, field: string): (r: Tlv)
    ensures r.kind == t.kind && r.min == t.min && r.max == t.max
    ensures WellFormed(t) ==> WellFormed(r)
    ensures r.status == Ok && r.kind.IsNumeric() ==> r.min <= r.Num() <= r.max
    ensures r.status == Ok && !r.kind.IsNumeric() ==> r.min <= r.length <= r.max
    ensures r.status !in {Busy, EmptyData, NoMemory, MoreData}
  {
    if t.kind.IsNumeric() then DecodeNumber(t, field)
    else if t.kind == Array then DecodeArray(t, field)
    else if t.kind == Str then DecodeString(t, field)
    else DecodeString(t, field).(status := WrongType)
  }

  /** A compiled TLV given its field: an empty field marks it EmptyData, any other is decoded. */
  function Fill(t: Tlv, field: string): (r: Tlv)
    ensures r.kind == t.kind && r.min == t.min && r.max == t.max
    ensures WellFormed(t) ==> WellFormed(r)
    ensures field == [] <==> r.status == EmptyData
  {
    if field == [] then t.(status := EmptyData) else Decode(t, field)
  }

  /** Where at_pasr_input_walk leaves the input: just after the first comma, or NULL when there is none. */
  function NextInput(input: string): (r: Option<string>)
    ensures r.None? <==> ',' !in input
    ensures r.Some? ==> input == FirstField(input) + [','] + r.value
  {
    match Find(input, ',')
    case Some(i) =>
      assert input == input[..i] + [','] + input[i + 1..];
      Some(input[i + 1..])
    case None => None
  }

  /** The array decoder's loop, filling the reallocated payload one byte at a time. */
  method InputArray(t: Tlv, field: string) returns (r: Tlv)
    ensures r == DecodeArray(t, field)
  {
    var n := Len16(|field| / 2);
    var bytes := new Byte[n];
    var i := 0;
    while i < n
      invariant 0 <= i <= n
      invariant bytes[..i] == HexBytes(field, i)
    {
      bytes[i] := HexPairValue(field[2 * i], field[2 * i + 1]);
      assert bytes[..i + 1] == bytes[..i] + [bytes[i]];
      i := i + 1;
    }
    assert bytes[..] == bytes[..n];
    r := t.(length := n, value := Octets(bytes[..]));
    if t.min <= n <= t.max {
      r := r.(status := Ok);
    } else {
      r := r.(status := RangeExceed);
    }
    if |field| % 2 == 1 {
      r := r.(status := InvalidData);
    }
  }

  /** The %02X rendering of a byte sequence, two upper-case digits per byte. */
  function HexString(bytes: seq<Byte>): (s: string)
    ensures |s| == 2 * |bytes|
  {
    if bytes == [] then [] else HexString(bytes[..|bytes| - 1]) + Hex2(bytes[|bytes| - 1])
  }

  /** Byte i of the rendering is characters 2i and 2i + 1, the two digits of the byte. */
  lemma {:induction false} HexStringAt(bytes: seq<Byte>, i: nat)
    requires i < |bytes|
    ensures HexString(bytes)[2 * i] == Hex2(bytes[i])[0] && HexString(bytes)[2 * i + 1] == Hex2(bytes[i])[1]
  {
    var n := |bytes| - 1;
    if i < n {
      assert bytes[..n][i] == bytes[i];
      HexStringAt(bytes[..n], i);
    }
  }

  /** The digits of a number stop at a comma, so converting the field alone reads what the C decoder reads. */
  lemma {:induction false} LeadingDigitsStopAtComma(s: string, more: string)
    ensures LeadingDigits(s + [','] + more) == LeadingDigits(s)
  {
    if s != [] {
      assert (s + [','] + more)[1..] == s[1..] + [','] + more;
      LeadingDigitsStopAtComma(s[1..], more);
    } else {
      assert (s + [','] + more)[0] == ',';
    }
  }

  lemma ConvertStopsAtComma(field: string, more: string)
    requires ',' !in field
    ensures Convert(field + [','] + more) == Convert(field)
  {
    var s := field + [','] + more;
    var sign := if field != [] && (field[0] == '+' || field[0] == '-') then 1 else 0;
    if field != [] {
      assert s[0] == field[0];
    }
    assert s[sign..] == field[sign..] + [','] + more;
    LeadingDigitsStopAtComma(field[sign..], more);
    var n := LeadingDigits(field[sign..]);
    assert s[sign..][..n] == field[sign..][..n];
  }

  /** A number written in decimal within the kind's range reads back as itself, checked against the bounds. */
  lemma DecodeDecimal(t: Tlv, v: int)
    requires t.kind.IsNumeric() && t.kind.Lowest() <= v <= t.kind.Highest()
    ensures DecodeNumber(t, IntToDecimal(v))
         == t.(length := t.kind.Size(), status := if t.min <= v <= t.max then Ok else RangeExceed, value := Number(v))
  {
    ReadsDecimal(v);
  }

  /**
   * An unsigned field wraps to the width of its kind before the range check: with bounds
   * "B(0~1)" the text "257" is accepted as 1.
   */
  lemma UnsignedWraps(t: Tlv, v: nat)
    requires t.kind in {U8, U16, U32} && v <= ULongMax
    ensures DecodeNumber(t, IntToDecimal(v)).Num() == v % t.kind.Modulus()
    ensures DecodeNumber(t, IntToDecimal(v)).status in {Ok, RangeExceed}
  {
    ReadsDecimal(v);
    assert FieldNumber(t.kind, IntToDecimal(v)) == Narrow(t.kind, v);
  }

  lemma ByteFieldWrapsExample(t: Tlv)
    requires t.kind == U8 && t.min == 0 && t.max == 1
    ensures DecodeNumber(t, IntToDecimal(257)).status == Ok
    ensures DecodeNumber(t, IntToDecimal(257)).Num() == 1
  {
    UnsignedWraps(t, 257);
    assert 257 % U8.Modulus() == 1;
  }

  /**
   * Text after the digits makes the field WrongType; the value is reset to 0, except in the
   * 32-bit signed decoder, which keeps the number read before the text.
   */
  lemma TrailingText(t: Tlv, v: int, rest: string)
    requires t.kind.IsNumeric() && t.kind.Lowest() <= v <= t.kind.Highest()
    requires rest != [] && !IsDigit(rest[0])
    ensures var r := DecodeNumber(t, IntToDecimal(v) + rest);
      && r.status == WrongType && r.length == t.length
      && r.Num() == (if t.kind == I32 then v else 0)
  {
    if t.kind.IsSigned() {
      StrtolOfDecimal(v, rest);
    } else {
      StrtoulOfDecimal(v, rest);
    }
  }

  /** Reading the hexadecimal pairs of a %02X rendering gives back the bytes. */
  lemma HexBytesOfHexString(bytes: seq<Byte>)
    ensures HexBytes(HexString(bytes), |bytes|) == bytes
  {
    var decoded := HexBytes(HexString(bytes), |bytes|);
    forall i | 0 <= i < |bytes|
      ensures decoded[i] == bytes[i]
    {
      HexStringAt(bytes, i);
      HexPairOfHex2(bytes[i]);
    }
  }

  /** An array field written as %02X pairs decodes to the same bytes. */
  lemma ArrayRoundTrip(t: Tlv, bytes: seq<Byte>)
    requires |bytes| < 0x1_0000
    ensures DecodeArray(t, HexString(bytes))
         == t.(length := |bytes|, status := if t.min <= |bytes| <= t.max then Ok else RangeExceed, value := Octets(bytes))
  {
    var s := HexString(bytes);
    assert |s| / 2 == |bytes| && |s| % 2 == 0;
    HexBytesOfHexString(bytes);
  }

  /** A bare "D" field reads "-1" through strtoul as 0xFFFFFFFF, and accepts it. */
  lemma MinusOneAsU32(t: Tlv)
    requires t.kind == U32 && t.min == 0 && t.max == ULongMax
    ensures var r := DecodeNumber(t, ['-'] + NatToDecimal(1));
      r.status == Ok && r.Num() == ULongMax
  {
    var s := ['-'] + NatToDecimal(1);
    assert s + [] == s;
    ConvertNegative(1, []);
    StrtoulNegative(1, []);
  }

  /**
   * The signed 32-bit decoder keeps what strtol read even when the field is not a number:
   * a run of digits beyond the long range followed by other text keeps LONG_MAX.
   */
  lemma I32KeepsSaturated(t: Tlv, m: nat, rest: string)
    requires t.kind == I32 && m > LongMax
    requires rest != [] && !IsDigit(rest[0])
    ensures var r := DecodeNumber(t, NatToDecimal(m) + rest);
      r.status == WrongType && r.Num() == LongMax
  {
    ConvertUnsigned(m, rest);
    StrtolSaturates(m, rest);
  }

  /** AT_PASR_GET_PARAM_LEN_CHECK on an array field written as hex pairs holds exactly for its byte count. */
  lemma LenCheckArray(t: Tlv, bytes: seq<Byte>, n: nat)
    requires |bytes| < 0x1_0000
    ensures LenCheck([DecodeArray(t, HexString(bytes))], 0, n) <==> n == |bytes|
  {
    ArrayRoundTrip(t, bytes);
  }

  /** AT_PASR_GET_PARAM_LEN_CHECK on a string field holds exactly for its character count. */
  lemma LenCheckString(t: Tlv, s: string, n: nat)
    requires |s| < 0x1_0000
    ensures LenCheck([DecodeString(t, s)], 0, n) <==> n == |s|
  {
    StringRoundTrip(t, s);
  }

  /** A string field without commas is stored as it is. */
  lemma StringRoundTrip(t: Tlv, s: string)
    requires |s| < 0x1_0000
    ensures DecodeString(t, s) == t.(length := |s|, status := if t.min <= |s| <= t.max then Ok else RangeExceed, value := Chars(s))
  {
    assert s[..|s|] == s;
  }
}

=== FILE: pasr_format.dfy ===
/**
 * The format compiler: one token of a command's format string, such as "B(0~1)", "W(~5)",
 * "D(30~)", "A" or "S", becomes an empty TLV of the token's kind carrying the resolved bounds.
 */
module PasrFormat {
  import opened Wrappers
  import opened Text
  import opened Decimal
  import opened PasrTypes

  /** The tokens strtok_r yields from a format string: the non-empty comma-separated fields. */
  function Tokens(format: string): (ts: seq<string>)
    ensures forall i :: 0 <= i < |ts| ==> ts[i] != []
  {
    NonEmpty(Fields(format))
  }

  /** No token holds a comma. */
  lemma TokensHaveNoComma(format: string, i: nat)
    requires i < |Tokens(format)|
    ensures ',' !in Tokens(format)[i]
  {
    var fs := Fields(format);
    var j :| 0 <= j < |fs| && fs[j] == Tokens(format)[i];
    FieldsHaveNoComma(format, j);
  }

  /**
   * at_pasr_input_num: when `delimiter` occurs in s, the text before it converted by atoi and
   * the text after it; otherwise NotFound, the value is left as it was and the scan rests on
   * the terminating NUL.
   */
  datatype Scan = Found(value: int, rest: string) | NotFound

  function ScanNumber(s: string, delimiter: char): (r: Scan)
    ensures r.NotFound? <==> delimiter !in s
  {
    match Find(s, delimiter)
    case Some(i) => Found(Atoi(s[..i]), s[i + 1..])
    case None => NotFound
  }

  /** The kind and the bounds at_pasr_dt_identify resolves, before they are narrowed to the TLV fields. */
  datatype Bounds = Bounds(kind: Kind, min: int, max: int)

  /**
   * The text after "~": up to ")" it is the maximum, stored through a uint32_t, and text after
   * the ")" makes the kind unknown; with no ")" the bounds stay as they are.
   */
  function UpperBound(b: Bounds, s: string): (r: Bounds)
    ensures r.kind == b.kind || r.kind == Unknown
    ensures r.min == b.min
  {
    match ScanNumber(s, ')')
    case NotFound => b
    case Found(hi, rest) => Bounds(if rest != [] then Unknown else b.kind, b.min, ToUint32(hi))
  }

  /**
   * What follows the letter, starting from its default bounds `b`: "(~hi)" replaces the maximum,
   * "(lo~)" the minimum (atoi's int stored in an int32_t), "(lo~hi)" both.
   */
  function ResolveGroup(b: Bounds, group: string): (r: Bounds)
    ensures r.kind == b.kind || r.kind == Unknown
  {
    if group == [] || group[0] != '(' then b
    else if |group| >= 2 && group[1] == '~' then UpperBound(b, group[2..])
    else
      match ScanNumber(group[1..], '~')
      case NotFound => b
      case Found(lo, rest) =>
        if rest != [] && rest[0] == ')' then b.(min := lo)
        else UpperBound(b.(min := lo), rest)
  }

  /** The leading letter selects the kind and its default bounds; the rest of the token adjusts them. */
  function ResolveBounds(token: string): (b: Bounds)
    requires token != []
    ensures b.kind == KindOf(token[0]) || b.kind == Unknown
  {
    var k := KindOf(token[0]);
    ResolveGroup(Bounds(k, DefaultMin(k), DefaultMax(k)), token[1..])
  }

  /** The empty payload of a fresh TLV of kind k (calloc'ed). */
  function ZeroValue(k: Kind): Value
  {
    if k == Array then Octets([]) else if k == Str then Chars([]) else Number(0)
  }

  /**
   * at_pasr_dt_identify: a fresh TLV with status EmptyData, length 0 and the resolved bounds
   * narrowed to the kind's fields; None (NULL) when the kind is unknown.
   */
  function Identify(token: string): (t: Option<Tlv>)
    requires token != []
    ensures t.Some? ==> WellFormed(t.value) && t.value.kind == KindOf(token[0])
    ensures t.Some? ==> t.value.status == EmptyData && t.value.length == 0
    ensures t.None? <==> ResolveBounds(token).kind == Unknown
    ensures t.Some? ==> var b := ResolveBounds(token);
      t.value.min == Narrow(b.kind, b.min) && t.value.max == Narrow(b.kind, b.max)
  {
    var b := ResolveBounds(token);
    if b.kind == Unknown then None
    else Some(Tlv(b.kind, EmptyData, 0, Narrow(b.kind, b.min), Narrow(b.kind, b.max), ZeroValue(b.kind)))
  }

  /** A token that is a known letter with no "(" after it compiles to the kind with its default bounds. */
  lemma BareLetter(token: string)
    requires token != [] && KindOf(token[0]) != Unknown
    requires |token| == 1 || token[1] != '('
    ensures var k := KindOf(token[0]);
      Identify(token) == Some(Tlv(k, EmptyData, 0, DefaultMin(k), DefaultMax(k), ZeroValue(k)))
  {
    DefaultsFitFields(KindOf(token[0]));
  }

  /** Scanning up to the first delimiter: the text before it, converted, and the text after it. */
  lemma ScanSplit(before: string, delimiter: char, after: string)
    requires delimiter !in before
    ensures ScanNumber(before + [delimiter] + after, delimiter) == Found(Atoi(before), after)
  {
    var s := before + [delimiter] + after;
    assert s[|before|] == delimiter;
    assert s[..|before|] == before;
    assert s[|before| + 1..] == after;
  }

  /** The maximum up to ")" and the tail after it. */
  lemma UpperSplit(b: Bounds, hi: string, tail: string)
    requires ')' !in hi
    ensures UpperBound(b, hi + [')'] + tail)
         == Bounds(if tail != [] then Unknown else b.kind, b.min, ToUint32(Atoi(hi)))
  {
    ScanSplit(hi, ')', tail);
  }

  /** The group "(~hi)" followed by `tail`: only the maximum is replaced; trailing text makes the kind unknown. */
  lemma UpperOnlyGroup(b: Bounds, hi: string, tail: string)
    requires ')' !in hi
    ensures ResolveGroup(b, ['(', '~'] + hi + [')'] + tail)
         == Bounds(if tail != [] then Unknown else b.kind, b.min, ToUint32(Atoi(hi)))
  {
    var group := ['(', '~'] + hi + [')'] + tail;
    assert group[2..] == hi + [')'] + tail;
    UpperSplit(b, hi, tail);
  }

  /** A minimum given before "~": the rest of the group decides the maximum. */
  lemma LowerSplit(b: Bounds, lo: string, rest: string)
    requires '~' !in lo && lo != []
    ensures ResolveGroup(b, ['('] + lo + ['~'] + rest)
         == if rest != [] && rest[0] == ')' then b.(min := Atoi(lo)) else UpperBound(b.(min := Atoi(lo)), rest)
  {
    var group := ['('] + lo + ['~'] + rest;
    assert lo[0] in lo;
    assert group[1] == lo[0];
    assert group[1..] == lo + ['~'] + rest;
    ScanSplit(lo, '~', rest);
  }

  /** The group "(lo~hi)" followed by `tail`, with lo given: "(lo~)" keeps the maximum and ignores the tail. */
  lemma LowerGroup(b: Bounds, lo: string, hi: string, tail: string)
    requires '~' !in lo && ')' !in hi && lo != []
    ensures ResolveGroup(b, ['('] + lo + ['~'] + hi + [')'] + tail)
         == if hi == [] then b.(min := Atoi(lo))
            else Bounds(if tail != [] then Unknown else b.kind, Atoi(lo), ToUint32(Atoi(hi)))
  {
    var rest := hi + [')'] + tail;
    assert ['('] + lo + ['~'] + hi + [')'] + tail == ['('] + lo + ['~'] + rest;
    LowerSplit(b, lo, rest);
    if hi != [] {
      assert hi[0] in hi;
      assert rest[0] == hi[0];
      UpperSplit(b.(min := Atoi(lo)), hi, tail);
    } else {
      assert rest[0] == ')';
    }
  }

  /** Token-level form: "L(~hi)tail". */
  lemma UpperOnly(letter: char, hi: string, tail: string)
    requires ')' !in hi
    ensures var k := KindOf(letter);
      ResolveBounds([letter, '(', '~'] + hi + [')'] + tail)
        == Bounds(if tail != [] then Unknown else k, DefaultMin(k), ToUint32(Atoi(hi)))
  {
    var k := KindOf(letter);
    var token := [letter, '(', '~'] + hi + [')'] + tail;
    assert token[1..] == ['(', '~'] + hi + [')'] + tail;
    UpperOnlyGroup(Bounds(k, DefaultMin(k), DefaultMax(k)), hi, tail);
  }

  /** Token-level form: "L(lo~hi)tail" with lo given. */
  lemma LowerGiven(letter: char, lo: string, hi: string, tail: string)
    requires '~' !in lo && ')' !in hi && lo != []
    ensures var k := KindOf(letter);
      ResolveBounds([letter, '('] + lo + ['~'] + hi + [')'] + tail)
        == if hi == [] then Bounds(k, Atoi(lo), DefaultMax(k))
           else Bounds(if tail != [] then Unknown else k, Atoi(lo), ToUint32(Atoi(hi)))
  {
    var k := KindOf(letter);
    var token := [letter, '('] + lo + ['~'] + hi + [')'] + tail;
    assert token[1..] == ['('] + lo + ['~'] + hi + [')'] + tail;
    LowerGroup(Bounds(k, DefaultMin(k), DefaultMax(k)), lo, hi, tail);
  }

  /** "(lo~hi)" written in decimal resolves to exactly those bounds. */
  lemma DecimalGroup(token: string, letter: char, lo: int, hi: int)
    requires LongMin <= lo <= LongMax && LongMin <= hi <= LongMax
    requires token == [letter, '('] + IntToDecimal(lo) + ['~'] + IntToDecimal(hi) + [')']
    ensures ResolveBounds(token) == Bounds(KindOf(letter), lo, ToUint32(hi))
  {
    var l, h := IntToDecimal(lo), IntToDecimal(hi);
    DecimalSpelling(lo);
    DecimalSpelling(hi);
    assert '~' !in l && ')' !in h;
    AtoiOfDecimal(lo, l);
    AtoiOfDecimal(hi, h);
    LowerGiven(letter, l, h, []);
    assert [letter, '('] + l + ['~'] + h + [')'] + [] == token;
  }

  /** "(~hi)" written in decimal keeps the default minimum. */
  lemma DecimalUpper(token: string, letter: char, hi: int)
    requires LongMin <= hi <= LongMax
    requires token == [letter, '(', '~'] + IntToDecimal(hi) + [')']
    ensures var k := KindOf(letter);
      ResolveBounds(token) == Bounds(k, DefaultMin(k), ToUint32(hi))
  {
    var h := IntToDecimal(hi);
    DecimalSpelling(hi);
    assert ')' !in h;
    AtoiOfDecimal(hi, h);
    UpperOnly(letter, h, []);
    assert [letter, '(', '~'] + h + [')'] + [] == token;
  }

  /** "(lo~)" written in decimal keeps the default maximum. */
  lemma DecimalLower(token: string, letter: char, lo: int)
    requires LongMin <= lo <= LongMax
    requires token == [letter, '('] + IntToDecimal(lo) + ['~', ')']
    ensures var k := KindOf(letter);
      ResolveBounds(token) == Bounds(k, lo, DefaultMax(k))
  {
    var l := IntToDecimal(lo);
    DecimalSpelling(lo);
    assert '~' !in l;
    AtoiOfDecimal(lo, l);
    LowerGiven(letter, l, [], []);
    assert [letter, '('] + l + ['~'] + [] + [')'] + [] == token;
  }

  /**
   * A maximum beyond the long range saturates in atoi: "L(~m)" with m > 2147483647, such as
   * "D(~4294967295)", compiles to the maximum 2147483647.
   */
  lemma UpperSaturates(letter: char, m: nat)
    requires m > LongMax
    ensures var k := KindOf(letter);
      ResolveBounds([letter, '(', '~'] + NatToDecimal(m) + [')']) == Bounds(k, DefaultMin(k), LongMax)
  {
    var h := NatToDecimal(m);
    assert ')' !in h by {
      assert forall i :: 0 <= i < |h| ==> IsDigit(h[i]);
    }
    StrtolSaturates(m, []);
    assert h + [] == h;
    UpperOnly(letter, h, []);
    assert [letter, '(', '~'] + h + [')'] + [] == [letter, '(', '~'] + h + [')'];
  }

  /** Bounds that already fit the kind's fields reach the TLV unchanged. */
  lemma IdentifyFitting(token: string)
    requires token != []
    requires var b := ResolveBounds(token);
      b.kind != Unknown && b.kind.Lowest() <= b.min <= b.kind.Highest() && b.kind.Lowest() <= b.max <= b.kind.Highest()
    ensures var b := ResolveBounds(token);
      Identify(token) == Some(Tlv(b.kind, EmptyData, 0, b.min, b.max, ZeroValue(b.kind)))
  {
  }

  /** "B(1~2)": an unsigned byte between 1 and 2. */
  lemma ByteRangeExample()
    ensures ResolveBounds("B(1~2)") == Bounds(U8, 1, 2)
  {
    DecimalGroup("B(1~2)", 'B', 1, 2);
  }

  /**
   * A byte's maximum written beyond the byte is cut to its low eight bits when the TLV is made:
   * "B(0~300)" is a u8 TLV from 0 to 44.
   */
  lemma ByteMaxWraps(token: string, lo: int, hi: int)
    requires 0 <= lo <= 255 && 0 <= hi <= LongMax
    requires token == ['B', '('] + IntToDecimal(lo) + ['~'] + IntToDecimal(hi) + [')']
    ensures Identify(token) == Some(Tlv(U8, EmptyData, 0, lo, hi % 256, Number(0)))
  {
    DecimalGroup(token, 'B', lo, hi);
  }

  /** "W(~5)": only the maximum given, the minimum stays the kind's default. */
  lemma UpperOnlyExample()
    ensures ResolveBounds("W(~5)") == Bounds(U16, 0, 5)
  {
    DecimalUpper("W(~5)", 'W', 5);
  }

  /** A bare "S" takes the string defaults, 0 to 0xFFF characters. */
  lemma StringDefaultExample()
    ensures Identify("S") == Some(Tlv(Str, EmptyData, 0, 0, 0xFFF, Chars([])))
  {
    BareLetter("S");
  }

  /** An unknown letter compiles to nothing. */
  lemma UnknownLetterExample()
    ensures Identify("X") == None
  {
  }
}

=== FILE: pasr_store.dfy ===
/**
 * Parameter validation: the format's tokens and the input's fields are walked side by side,
 * each compiled token receiving the next field, and the decoded TLVs are kept in a store of
 * at most ten entries until the store is cleared.
 */
module PasrStore {
  import opened Wrappers
  import opened Text
  import opened PasrTypes
  import opened PasrFormat
  import opened PasrDecode

  /** at_pasr_fmt_walk over the whole format: the compiled TLV of every token, None where a token does not compile. */
  function CompileAll(tokens: seq<string>): (r: seq<Option<Tlv>>)
    requires forall i :: 0 <= i < |tokens| ==> tokens[i] != []
    ensures |r| == |tokens|
  {
    if tokens == [] then [] else [Identify(tokens[0])] + CompileAll(tokens[1..])
  }

  /** The i-th entry is the compiled i-th token. */
  lemma {:induction false} CompileAllAt(tokens: seq<string>, i: nat)
    requires forall j :: 0 <= j < |tokens| ==> tokens[j] != []
    requires i < |tokens|
    ensures CompileAll(tokens)[i] == Identify(tokens[i])
  {
    if i > 0 {
      CompileAllAt(tokens[1..], i - 1);
    }
  }

  /** The number of leading tokens that compile; the walk stops at the first that does not. */
  function Compiled(compiled: seq<Option<Tlv>>): (n: nat)
    ensures n <= |compiled|
    ensures forall i :: 0 <= i < n ==> compiled[i].Some?
    ensures n < |compiled| ==> compiled[n].None?
  {
    if compiled == [] || compiled[0].None? then 0 else 1 + Compiled(compiled[1..])
  }

  /**
   * The loop of at_pasr_param_validate: each compiled token paired with the field it receives,
   * in order, and the input pointer the loop leaves (None for NULL).  The loop ends when the
   * tokens run out, when a token does not compile, or when the input pointer is NULL.
   */
  function Walk(compiled: seq<Option<Tlv>>, input: Option<string>): (r: (seq<(Tlv, string)>, Option<string>))
    ensures |r.0| <= |compiled|
  {
    if compiled == [] || compiled[0].None? || input.None? then ([], input)
    else
      var rest := Walk(compiled[1..], NextInput(input.value));
      ([(compiled[0].value, FirstField(input.value))] + rest.0, rest.1)
  }

  /** One step of the walk: a compiled token takes the first field, and the walk goes on after the comma. */
  lemma WalkStep(compiled: seq<Option<Tlv>>, input: string)
    requires compiled != [] && compiled[0].Some?
    ensures var rest := Walk(compiled[1..], NextInput(input));
      Walk(compiled, Some(input)) == ([(compiled[0].value, FirstField(input))] + rest.0, rest.1)
  {
  }

  /** The walk from token k on is the walk from token k + 1 on after one step. */
  lemma WalkAdvance(compiled: seq<Option<Tlv>>, k: nat, input: string,
                    whole: (seq<(Tlv, string)>, Option<string>), walked: seq<(Tlv, string)>)
    requires k < |compiled| && compiled[k].Some?
    requires whole.0 == walked + Walk(compiled[k..], Some(input)).0
    requires whole.1 == Walk(compiled[k..], Some(input)).1
    ensures var rest := Walk(compiled[k + 1..], NextInput(input));
      whole.0 == (walked + [(compiled[k].value, FirstField(input))]) + rest.0 && whole.1 == rest.1
  {
    WalkStep(compiled[k..], input);
    assert compiled[k..][1..] == compiled[k + 1..];
  }

  /** Where the walk stops: no tokens left, a token that does not compile, or a NULL input. */
  lemma WalkStops(compiled: seq<Option<Tlv>>, input: Option<string>)
    requires compiled == [] || compiled[0].None? || input.None?
    ensures Walk(compiled, input) == ([], input)
  {
  }

  /** The TLVs the walk stores: each compiled TLV filled from its field. */
  function FillAll(pairs: seq<(Tlv, string)>): (r: seq<Tlv>)
    ensures |r| == |pairs|
  {
    if pairs == [] then [] else FillAll(pairs[..|pairs| - 1]) + [Fill(pairs[|pairs| - 1].0, pairs[|pairs| - 1].1)]
  }

  lemma FillAllAppend(pairs: seq<(Tlv, string)>, t: Tlv, field: string, r: Tlv)
    requires r == Fill(t, field)
    ensures FillAll(pairs + [(t, field)]) == FillAll(pairs) + [r]
  {
    assert (pairs + [(t, field)])[..|pairs|] == pairs;
  }

  lemma {:induction false} FillAllAt(pairs: seq<(Tlv, string)>, i: nat)
    requires i < |pairs|
    ensures FillAll(pairs)[i] == Fill(pairs[i].0, pairs[i].1)
  {
    if i < |pairs| - 1 {
      FillAllAt(pairs[..|pairs| - 1], i);
    }
  }


  /** The first n elements of s, or all of them when there are fewer. */
  function Take<T>(s: seq<T>, n: nat): (r: seq<T>)
    ensures |r| == (if |s| <= n then |s| else n) && r == s[..|r|]
    ensures |s| <= n ==> r == s
  {
    if |s| <= n then s else s[..n]
  }

  /** Appending to a sequence appends to its first n elements while they are fewer than n. */
  lemma TakeAppend<T>(s: seq<T>, x: T, n: nat)
    ensures Take(s + [x], n) == if |s| < n then Take(s, n) + [x] else Take(s, n)
  {
    if |s| >= n {
      assert (s + [x])[..n] == s[..n];
    }
  }

  /**
   * at_pasr_param_validate against a store holding `count` entries: Busy while the store is in
   * use, otherwise the stored TLVs (beyond ten, dropped) and MoreData when the input pointer is
   * left non-NULL, Ok when the whole input was consumed.
   */
  function ValidateSpec(count: nat, input: string, format: string): (r: (PasrErr, seq<Tlv>))
    ensures count != 0 <==> r.0 == Busy
    ensures count != 0 ==> r.1 == []
    ensures r.0 in {Busy, MoreData, Ok} && |r.1| <= MaxParams
  {
    if count != 0 then (Busy, [])
    else
      var w := Walk(CompileAll(Tokens(format)), Some(input));
      (if w.1.Some? then MoreData else Ok, Take(FillAll(w.0), MaxParams))
  }

  /** Past the first comma, the remaining fields are those of the text after it. */
  lemma FieldsAfterComma(input: string)
    requires ',' in input
    ensures NextInput(input).Some? && Fields(input) == [FirstField(input)] + Fields(NextInput(input).value)
  {
    var i := Find(input, ',').value;
    assert NextInput(input) == Some(input[i + 1..]);
  }

  /**
   * The walk takes as many fields as there are leading compiled tokens or fields, whichever is
   * fewer, and leaves the input pointer non-NULL exactly when some field was not taken.
   */
  lemma {:induction false} WalkTakesFields(compiled: seq<Option<Tlv>>, input: string)
    ensures var w := Walk(compiled, Some(input));
      var fields := Fields(input);
      && |w.0| == (if Compiled(compiled) < |fields| then Compiled(compiled) else |fields|)
      && (w.1.Some? <==> |w.0| < |fields|)
    decreases |compiled|
  {
    if compiled != [] && compiled[0].Some? {
      assert Compiled(compiled) == 1 + Compiled(compiled[1..]);
      if ',' in input {
        FieldsAfterComma(input);
        WalkTakesFields(compiled[1..], NextInput(input).value);
      } else {
        assert Fields(input) == [input];
      }
    }
  }

  /** The walk pairs the i-th compiled token with the i-th field of the input. */
  lemma {:induction false} WalkPairsAt(compiled: seq<Option<Tlv>>, input: string, i: nat)
    requires i < |Walk(compiled, Some(input)).0|
    ensures i < |Fields(input)| && compiled[i].Some?
    ensures Walk(compiled, Some(input)).0[i] == (compiled[i].value, Fields(input)[i])
  {
    var w := Walk(compiled, Some(input));
    assert compiled != [] && compiled[0].Some?;
    var next := NextInput(input);
    var rest := Walk(compiled[1..], next);
    assert w.0 == [(compiled[0].value, FirstField(input))] + rest.0 by {
      WalkStep(compiled, input);
    }
    if next.None? {
      assert Fields(input) == [input];
    } else if i > 0 {
      assert Fields(input) == [FirstField(input)] + Fields(next.value) by {
        FieldsAfterComma(input);
      }
      WalkPairsAt(compiled[1..], next.value, i - 1);
      assert w.0[i] == rest.0[i - 1];
    }
  }

  /**
   * Validation ends with MoreData exactly when the input has fields left that no token took,
   * and the i-th stored TLV is the i-th compiled token filled from the i-th field.
   */
  lemma ValidateDecodesFields(input: string, format: string)
    ensures var r := ValidateSpec(0, input, format);
      var compiled := CompileAll(Tokens(format));
      var fields := Fields(input);
      var taken := if Compiled(compiled) < |fields| then Compiled(compiled) else |fields|;
      && (r.0 == MoreData <==> taken < |fields|)
      && |r.1| == (if taken < MaxParams then taken else MaxParams)
      && (forall i :: 0 <= i < |r.1| ==> compiled[i].Some? && r.1[i] == Fill(compiled[i].value, fields[i]))
  {
    var compiled := CompileAll(Tokens(format));
    var w := Walk(compiled, Some(input));
    WalkTakesFields(compiled, input);
    var r := ValidateSpec(0, input, format);
    forall i | 0 <= i < |r.1|
      ensures compiled[i].Some? && r.1[i] == Fill(compiled[i].value, Fields(input)[i])
    {
      WalkPairsAt(compiled, input, i);
      FillAllAt(w.0, i);
    }
  }

  /** Every parameter validation stores is well formed: its payload is of its kind and fits its fields. */
  lemma ValidatedWellFormed(input: string, format: string, i: nat)
    requires i < |ValidateSpec(0, input, format).1|
    ensures WellFormed(ValidateSpec(0, input, format).1[i])
  {
    var tokens := Tokens(format);
    ValidateDecodesFields(input, format);
    assert CompileAll(tokens)[i].Some?;
    CompileAllAt(tokens, i);
  }

  /**
   * AT_PASR_GET_PARAM on a stored parameter of kind k reads the union member of type k: a
   * number within k's field, or as many bytes or characters as the length says.
   */
  lemma ValidatedParam(input: string, format: string, k: Kind, i: nat)
    requires var args := ValidateSpec(0, input, format).1; i < |args| && args[i].kind == k
    ensures var args := ValidateSpec(0, input, format).1;
      var v := GetParam(args, k, i);
      && (k.IsNumeric() ==> v.Number? && k.Lowest() <= v.n <= k.Highest())
      && (k == Array ==> v.Octets? && |v.bytes| == args[i].length)
      && (k == Str ==> v.Chars? && |v.text| == args[i].length)
  {
    ValidatedWellFormed(input, format, i);
  }

  /**
   * The decoded parameters, the output of at_pasr_param_validate: at most ten TLVs held in
   * order of the format's tokens.
   */
  class ParamStore {
    const slots: array<Tlv>
    var count: nat

    ghost predicate Valid()
      reads this
    {
      slots.Length == MaxParams && count <= MaxParams
    }

    /** The stored parameters, in order. */
    function Contents(): (c: seq<Tlv>)
      requires Valid()
      reads this, slots
      ensures |c| == count
    {
      slots[..count]
    }

    constructor ()
      ensures Valid() && Contents() == []
    {
      slots := new Tlv[MaxParams](_ => Tlv(Unknown, EmptyData, 0, 0, 0, Number(0)));
      count := 0;
    }

    /** at_pasr_param_store: keep the TLV while there is room, drop it otherwise. */
    method Store(t: Tlv)
      requires Valid()
      modifies this, slots
      ensures Valid()
      ensures Contents() == if old(count) < MaxParams then old(Contents()) + [t] else old(Contents())
    {
      if count < MaxParams {
        slots[count] := t;
        count := count + 1;
      }
    }

    /** at_pasr_param_validate: decode `input` against `format` into the store. */
    method Validate(input: string, format: string) returns (r: PasrErr)
      requires Valid()
      modifies this, slots
      ensures Valid()
      ensures r == ValidateSpec(old(count), input, format).0
      ensures r == Busy ==> Contents() == old(Contents())
      ensures r != Busy ==> Contents() == ValidateSpec(old(count), input, format).1
    {
      if count != 0 {
        return Busy;
      }
      var rest := WalkInto(Tokens(format), input);
      r := if rest.Some? then MoreData else Ok;
    }

    /**
     * The loop of at_pasr_param_validate on an empty store: compile the next token, hand it the
     * next field, store the result, until the tokens run out, a token does not compile or the
     * input pointer is NULL.
     */
    method WalkInto(tokens: seq<string>, input: string) returns (rest: Option<string>)
      requires Valid() && count == 0
      requires forall j :: 0 <= j < |tokens| ==> tokens[j] != []
      modifies this, slots
      ensures Valid()
      ensures var w := Walk(CompileAll(tokens), Some(input));
        rest == w.1 && Contents() == Take(FillAll(w.0), MaxParams)
    {
      ghost var compiled := CompileAll(tokens);
      var k := 0;
      rest := Some(input);
      ghost var whole := Walk(compiled, Some(input));
      ghost var walked: seq<(Tlv, string)> := [];
      assert compiled[k..] == compiled;
      while k < |tokens|
        invariant Valid() && k <= |tokens| && |walked| == k
        invariant whole.0 == walked + Walk(compiled[k..], rest).0
        invariant whole.1 == Walk(compiled[k..], rest).1
        invariant Contents() == Take(FillAll(walked), MaxParams)
        decreases |tokens| - k
      {
        var t := FmtWalk(tokens, k);
        if t.None? || rest.None? {
          WalkStops(compiled[k..], rest);
          break;
        }
        ghost var pair := (t.value, FirstField(rest.value));
        WalkAdvance(compiled, k, rest.value, whole, walked);
        var next := Feed(walked, t.value, rest.value);
        walked := walked + [pair];
        rest := next;
        k := k + 1;
      }
      if k == |tokens| {
        WalkStops(compiled[k..], rest);
      }
      assert walked == whole.0;
    }

    /** One turn of the loop: the compiled TLV takes the first field of the input and is stored. */
    method Feed(ghost walked: seq<(Tlv, string)>, t: Tlv, input: string) returns (next: Option<string>)
      requires Valid() && Contents() == Take(FillAll(walked), MaxParams)
      modifies this, slots
      ensures Valid() && Contents() == Take(FillAll(walked + [(t, FirstField(input))]), MaxParams)
      ensures next == NextInput(input)
    {
      var r;
      r, next := InputWalk(t, input);
      FillAllAppend(walked, t, FirstField(input), r);
      TakeAppend(FillAll(walked), r, MaxParams);
      Store(r);
    }

    /** at_pasr_param_get: the parameter at idx, or None (NULL) past the stored count. */
    method Get(idx: nat) returns (r: Option<Tlv>)
      requires Valid()
      ensures r.Some? <==> idx < |Contents()|
      ensures r.Some? ==> r.value == Contents()[idx]
    {
      if idx >= count {
        return None;
      }
      return Some(slots[idx]);
    }

    /** at_pasr_param_num_get. */
    method NumGet() returns (n: nat)
      requires Valid()
      ensures n == |Contents()|
    {
      return count;
    }

    /** at_pasr_clear: release the stored parameters so that the next validation may run. */
    method Clear()
      requires Valid()
      modifies this
      ensures Valid() && Contents() == []
    {
      count := 0;
    }
  }

  /** at_pasr_fmt_walk: strtok_r's k-th token of the format, compiled. */
  method FmtWalk(tokens: seq<string>, k: nat) returns (t: Option<Tlv>)
    requires forall j :: 0 <= j < |tokens| ==> tokens[j] != []
    requires k < |tokens|
    ensures t == CompileAll(tokens)[k]
  {
    CompileAllAt(tokens, k);
    t := Identify(tokens[k]);
  }

  /** at_pasr_input_walk on a non-NULL input, with the array decoder's loop. */
  method InputWalk(t: Tlv, input: string) returns (r: Tlv, next: Option<string>)
    ensures r == Fill(t, FirstField(input)) && next == NextInput(input)
  {
    var field := FirstField(input);
    if field == [] {
      r := t.(status := EmptyData);
    } else if t.kind == Array {
      r := InputArray(t, field);
    } else {
      r := Decode(t, field);
    }
    next := NextInput(input);
  }

  /** After a clear, validation runs again and the store holds what it decoded. */
  method RevalidateAfterClear(store: ParamStore, input: string, format: string) returns (r: PasrErr)
    requires store.Valid()
    modifies store, store.slots
    ensures store.Valid() && r != Busy
    ensures store.Contents() == ValidateSpec(0, input, format).1
  {
    store.Clear();
    r := store.Validate(input, format);
  }
}

=== FILE: pasr_types.dfy ===
/**
 * The data model of the AT parameter parser: its status codes, the kinds of parameter, the
 * kind table (keyword letter and default bounds of each kind) and the tagged value (TLV) that
 * one decoded parameter becomes.
 */
module PasrTypes {

  /** AT_PASR_PARAM_MAX_CNT: how many decoded parameters the store keeps. */
  const MaxParams: nat := 10

  /** at_pasr_err_t, the status of a decoded value or of a validation. */
  datatype PasrErr = Ok | RangeExceed | WrongType | Busy | EmptyData | NoMemory | InvalidData | MoreData
  {
    function Code(): (c: nat)
      ensures c < 8
    {
      match this
      case Ok => 0
      case RangeExceed => 1
      case WrongType => 2
      case Busy => 3
      case EmptyData => 4
      case NoMemory => 5
      case InvalidData => 6
      case MoreData => 7
    }
  }

  /** at_pasr_dt_t; Unknown is both "no such kind" and the number of kinds. */
  datatype Kind = I8 | U8 | I16 | U16 | I32 | U32 | Array | Str | Unknown
  {
    function Code(): (c: nat)
      ensures c <= 8
    {
      match this
      case I8 => 0
      case U8 => 1
      case I16 => 2
      case U16 => 3
      case I32 => 4
      case U32 => 5
      case Array => 6
      case Str => 7
      case Unknown => 8
    }

    predicate IsNumeric() { this != Array && this != Str && this != Unknown }

    predicate IsSigned() { this == I8 || this == I16 || this == I32 }

    /** sizeof the value of a numeric kind: the length a decoded number records. */
    function Size(): nat
    {
      match this
      case I8 => 1
      case U8 => 1
      case I16 => 2
      case U16 => 2
      case I32 => 4
      case U32 => 4
      case _ => 0
    }

    /** 2 to the width of the TLV fields that hold this kind's bounds and value. */
    function Modulus(): nat
    {
      match this
      case I8 => 0x100
      case U8 => 0x100
      case I16 => 0x1_0000
      case U16 => 0x1_0000
      case Array => 0x1_0000
      case Str => 0x1_0000
      case _ => 0x1_0000_0000
    }

    /** The smallest value those fields can hold. */
    function Lowest(): int { if IsSigned() then -(Modulus() / 2) else 0 }

    /** The largest value those fields can hold. */
    function Highest(): int { if IsSigned() then Modulus() / 2 - 1 else Modulus() - 1 }
  }

  /** The keyword letters of dt_ctx.kword, in kind order. */
  const Letters: string := "bBwWdDAS"

  /** The kind whose keyword is `letter`, or Unknown. */
  function KindOf(letter: char): Kind
  {
    match letter
    case 'b' => I8
    case 'B' => U8
    case 'w' => I16
    case 'W' => U16
    case 'd' => I32
    case 'D' => U32
    case 'A' => Array
    case 'S' => Str
    case _ => Unknown
  }

  /** dt_ctx.min, an int32_t per kind. */
  function DefaultMin(k: Kind): int
  {
    match k
    case I8 => -0x80
    case I16 => -0x8000
    case I32 => -0x8000_0000
    case _ => 0
  }

  /** dt_ctx.max, a uint32_t per kind; the array and string entries bound the length. */
  function DefaultMax(k: Kind): int
  {
    match k
    case I8 => 0x7F
    case U8 => 0xFF
    case I16 => 0x7FFF
    case U16 => 0xFFFF
    case I32 => 0x7FFF_FFFF
    case U32 => 0xFFFF_FFFF
    case Array => 0xFF
    case Str => 0xFFF
    case Unknown => 0
  }

  /** The C conversion of v to the field type of kind k (two's complement wrap-around). */
  function Narrow(k: Kind, v: int): (r: int)
    ensures k.Lowest() <= r <= k.Highest()
    ensures k.Lowest() <= v <= k.Highest() ==> r == v
    ensures !k.IsSigned() ==> r == v % k.Modulus()
    ensures r % k.Modulus() == v % k.Modulus()
  {
    if k.Lowest() <= v <= k.Highest() then v
    else
      var m := k.Modulus();
      var u := v % m;
      if k.IsSigned() && u >= m / 2 then u - m else u
  }

  /** The (uint32_t) conversion of an int. */
  function ToUint32(v: int): (r: int)
    requires -0x8000_0000 <= v <= 0x7FFF_FFFF
    ensures 0 <= r <= 0xFFFF_FFFF && r % 0x1_0000_0000 == v % 0x1_0000_0000
  {
    if v < 0 then v + 0x1_0000_0000 else v
  }

  type Byte = b: int | 0 <= b < 0x100

  /** The payload of a TLV: the union member its kind selects. */
  datatype Value = Number(n: int) | Octets(bytes: seq<Byte>) | Chars(text: string)

  /** at_pasr_tlv_t: kind, status, length, the bounds narrowed to the kind's fields, and the payload. */
  datatype Tlv = Tlv(kind: Kind, status: PasrErr, length: nat, min: int, max: int, value: Value)
  {
    /** The number a numeric TLV holds (0 for the other kinds). */
    function Num(): int
    {
      if value.Number? then value.n else 0
    }
  }

  /** A TLV whose payload matches its kind and whose bounds and value fit the kind's fields. */
  ghost predicate WellFormed(t: Tlv)
  {
    && t.kind != Unknown
    && t.kind.Lowest() <= t.min <= t.kind.Highest()
    && t.kind.Lowest() <= t.max <= t.kind.Highest()
    && t.length < 0x1_0000
    && match t.value
       case Number(n) => t.kind.IsNumeric() && t.kind.Lowest() <= n <= t.kind.Highest()
       case Octets(b) => t.kind == Array && |b| == t.length
       case Chars(s) => t.kind == Str && |s| == t.length
  }

  /**
   * AT_PASR_GET_PARAM: the payload of argument i, after asserting that its kind is k.  The union
   * member read is the one of type k: of a well-formed argument, a number within k's field, or
   * the bytes or characters the length counts.
   */
  function GetParam(args: seq<Tlv>, k: Kind, i: nat): (v: Value)
    requires i < |args| && args[i].kind == k
    ensures v == args[i].value
    ensures WellFormed(args[i]) && k.IsNumeric() ==> v.Number? && k.Lowest() <= v.n <= k.Highest()
    ensures WellFormed(args[i]) && k == Array ==> v.Octets? && |v.bytes| == args[i].length
    ensures WellFormed(args[i]) && k == Str ==> v.Chars? && |v.text| == args[i].length
  {
    args[i].value
  }

  /** AT_PASR_GET_PARAM_LEN_CHECK: does argument i hold exactly len bytes? */
  function LenCheck(args: seq<Tlv>, i: nat, len: nat): (r: bool)
    requires i < |args|
    ensures r <==> args[i].length == len
  {
    len == args[i].length
  }

  /** The keyword letters and the kinds correspond one to one, in the order of the codes. */
  lemma LetterTable()
    ensures |Letters| == 8
    ensures forall i :: 0 <= i < 8 ==> KindOf(Letters[i]).Code() == i
    ensures forall c: char :: KindOf(c) != Unknown ==> c in Letters
  {
  }

  /** The default bounds of every kind fit the fields of its TLV unchanged (a string defaults to 0..0xFFF octets). */
  lemma DefaultsFitFields(k: Kind)
    requires k != Unknown
    ensures k.Lowest() <= DefaultMin(k) <= DefaultMax(k) <= k.Highest()
    ensures Narrow(k, DefaultMin(k)) == DefaultMin(k) && Narrow(k, DefaultMax(k)) == DefaultMax(k)
  {
  }
}

=== FILE: proc_lemmas.dfy ===
/**
 * What at_cmd_proc does with the forms of command text: the unknown name, the bare name, the
 * query and test suffixes, the execution whatever its separator, a residue of input, the
 * built-in DEBUG and LISTCMDS commands, and text arriving over the UART transport.
 */
module ProcLemmas {
  import opened Wrappers
  import opened Text
  import opened Decimal
  import opened PasrTypes
  import opened PasrFormat
  import opened PasrDecode
  import opened PasrStore
  import opened CmdTypes
  import opened Framer
  import opened Registry
  import opened Dispatch

  /**
   * The built-in DEBUG command: one u8 argument between 0 and 1.  The format "B(0~1)" is
   * written out from its parts (see DebugFormatText).
   */
  predicate IsDebugCmd(cmd: Cmd)
  {
    && cmd.name == "DEBUG" && cmd.paramNum == 1 && cmd.handler.Debug? && cmd.test == "<1 or 0>"
    && cmd.fmt == ['B', '('] + IntToDecimal(0) + ['~'] + IntToDecimal(1) + [')']
  }

  lemma DebugFormatText()
    ensures ['B', '('] + IntToDecimal(0) + ['~'] + IntToDecimal(1) + [')'] == "B(0~1)"
  {
  }

  /** The built-in LISTCMDS command: no arguments. */
  const ListCmd: Cmd := Cmd("LISTCMDS", "", 0, ListCmds, "<List all AT commands>")

  /** The response to an unsupported text. */
  const NotSupported: string := Crlf + "ERR:1" + Crlf

  /** The response OK. */
  const Okay: string := Crlf + "OK" + Crlf

  lemma NotSupportedFrames(name: string)
    ensures StatusFrames(NotSupport, name, 0) == [NotSupported]
  {
    StatusText(NotSupport, name, 0);
    assert "ERR:" + NatToDecimal(NotSupport.Code()) == "ERR:1";
  }

  lemma OkayFrames(name: string)
    ensures StatusFrames(NoError, name, 0) == [Okay]
  {
    StatusText(NoError, name, 0);
  }

  /** Data the transport turns into a text whose name is not registered gets ERR:1 and is refused. */
  lemma UnknownName(cmds: seq<Cmd>, xfer: Transport, debug: bool, ch: nat, data: string)
    requires data != [] && Transfer(xfer, data).Some? && Transfer(xfer, data).value != []
    requires Resolve(cmds, Transfer(xfer, data).value).None?
    ensures Process(cmds, xfer, debug, ch, data) == Outcome(false, [NotSupported], debug)
  {
    NotSupportedFrames([]);
  }

  /** A text whose candidate is a registered name is handled by that command. */
  lemma NameResolves(cmds: seq<Cmd>, xfer: Transport, debug: bool, ch: nat, data: string, i: nat)
    requires Sorted(cmds) && i < |cmds| && cmds[i].name != []
    requires data != [] && Transfer(xfer, data).Some?
    requires Candidate(Transfer(xfer, data).value) == cmds[i].name
    ensures Process(cmds, xfer, debug, ch, data) == Command(cmds, cmds[i], debug, ch, Transfer(xfer, data).value)
  {
    LookupUnique(cmds, cmds[i].name, i);
  }

  /** The bare name is not supported: ERR:1, refused, no handler called. */
  lemma BareName(cmds: seq<Cmd>, cmd: Cmd, debug: bool, ch: nat)
    ensures Command(cmds, cmd, debug, ch, cmd.name) == Outcome(false, [NotSupported], debug)
  {
    NotSupportedFrames(cmd.name);
  }

  /**
   * NAME? calls the handler as a query with no error and no arguments, sends what the handler
   * sent and then OK, whatever error the handler reports.
   */
  lemma QueryForm(cmds: seq<Cmd>, cmd: Cmd, debug: bool, ch: nat)
    ensures var (v, d) := RunHandler(cmds, cmd.handler, Param(Query, NoError, cmd.paramNum, [], ch, cmd.name, 0), debug);
      Command(cmds, cmd, debug, ch, cmd.name + "?") == Outcome(true, v.out + [Okay], d)
  {
    OkayFrames(cmd.name);
  }

  /** NAME=? sends "+NAME:<test text>" and OK without calling the handler. */
  lemma TestForm(cmds: seq<Cmd>, cmd: Cmd, debug: bool, ch: nat)
    requires |cmd.name| + |cmd.test| <= 250
    ensures Command(cmds, cmd, debug, ch, cmd.name + "=?")
         == Outcome(true, [Crlf + ("+" + cmd.name + ":" + cmd.test) + Crlf, Okay], debug)
  {
    OkayFrames(cmd.name);
    FrameFits(All, "+" + cmd.name + ":" + cmd.test);
  }

  /** Any other text after the name is executed on what follows its first character, which is not examined. */
  lemma SeparatorIgnored(cmds: seq<Cmd>, cmd: Cmd, debug: bool, ch: nat, c1: char, c2: char, rest: string)
    requires !(c1 == '?' && rest == []) && !(c1 == '=' && rest == "?")
    requires !(c2 == '?' && rest == []) && !(c2 == '=' && rest == "?")
    ensures Command(cmds, cmd, debug, ch, cmd.name + [c1] + rest).accepted
    ensures Command(cmds, cmd, debug, ch, cmd.name + [c1] + rest) == Command(cmds, cmd, debug, ch, cmd.name + [c2] + rest)
  {
    var n := |cmd.name|;
    assert (cmd.name + [c1] + rest)[n + 1..] == rest == (cmd.name + [c2] + rest)[n + 1..];
    assert (cmd.name + [c1] + rest)[n] == c1 && (cmd.name + [c2] + rest)[n] == c2;
    if |rest| == 1 {
      assert (cmd.name + [c1] + rest)[n + 1] == rest[0] == (cmd.name + [c2] + rest)[n + 1];
      assert rest == [rest[0]];
    }
  }

  /** Text after the name that is neither "?" nor "=?" is executed on what follows its first character. */
  lemma ExecForm(cmds: seq<Cmd>, cmd: Cmd, debug: bool, ch: nat, c: char, rest: string)
    requires !(c == '?' && rest == []) && !(c == '=' && rest == "?")
    ensures var (status, args) := ValidateSpec(0, rest, cmd.fmt);
      var (fs, d) := Call(cmds, cmd, Exec, args, ch, status == MoreData, debug);
      Command(cmds, cmd, debug, ch, cmd.name + [c] + rest) == Outcome(true, fs, d)
  {
    var n := |cmd.name|;
    var s := cmd.name + [c] + rest;
    assert s[n + 1..] == rest && s[n] == c;
    if |rest| == 1 {
      assert s[n + 1] == rest[0] && rest == [rest[0]];
    }
  }

  /**
   * Input left over after the format's tokens (MORE_DATA) makes the error WrongArguCnt,
   * whatever the argument check found; the handler is still called with it and its status sent.
   */
  lemma ResidueOverrides(cmds: seq<Cmd>, cmd: Cmd, debug: bool, ch: nat, c: char, rest: string)
    requires cmd.handler.App? && !(c == '?' && rest == []) && !(c == '=' && rest == "?")
    requires ValidateSpec(0, rest, cmd.fmt).0 == MoreData
    ensures var args := ValidateSpec(0, rest, cmd.fmt).1;
      var v := cmd.handler.run(Param(Exec, WrongArguCnt, ArgsVerdict(cmd.paramNum, args).1, args, ch, cmd.name, 0));
      Command(cmds, cmd, debug, ch, cmd.name + [c] + rest)
        == Outcome(true, v.out + StatusFrames(v.err, cmd.name, v.appErr), debug)
  {
    ExecForm(cmds, cmd, debug, ch, c, rest);
  }

  /** DEBUG's format has no comma: it is a single token. */
  lemma DebugTokens(f: string)
    requires f == ['B', '('] + IntToDecimal(0) + ['~'] + IntToDecimal(1) + [')']
    ensures Tokens(f) == [f]
  {
    assert Find(f, ',') == None;
  }

  /** That token is a u8 between 0 and 1. */
  lemma DebugToken(f: string)
    requires f == ['B', '('] + IntToDecimal(0) + ['~'] + IntToDecimal(1) + [')']
    ensures CompileAll([f]) == [Some(Tlv(U8, EmptyData, 0, 0, 1, Number(0)))]
  {
    DecimalGroup(f, 'B', 0, 1);
    IdentifyFitting(f);
  }

  /** The TLV a "B(0~1)" token compiles to: a u8 between 0 and 1, not yet filled. */
  const Flag: Tlv := Tlv(U8, EmptyData, 0, 0, 1, Number(0))

  /** A command named DEBUG, with the DEBUG handler, one parameter and a format of that one token. */
  predicate DebugLike(cmd: Cmd)
  {
    cmd.name == "DEBUG" && cmd.paramNum == 1 && cmd.handler.Debug? && CompileAll(Tokens(cmd.fmt)) == [Some(Flag)]
  }

  /** DEBUG's format compiles to one u8 between 0 and 1. */
  lemma DebugFormat(cmd: Cmd)
    requires IsDebugCmd(cmd)
    ensures DebugLike(cmd)
  {
    DebugTokens(cmd.fmt);
    DebugToken(cmd.fmt);
  }

  /** A format of one token takes a field without a comma whole, with nothing left over. */
  lemma OneTokenFormat(f: string, t: Tlv, d: string)
    requires CompileAll(Tokens(f)) == [Some(t)] && ',' !in d
    ensures ValidateSpec(0, d, f) == (Ok, [Fill(t, d)])
  {
    assert FirstField(d) == d;
    assert Walk([Some(t)], Some(d)) == ([(t, d)], None) by {
      WalkStep([Some(t)], d);
      assert [Some(t)][1..] == [] && NextInput(d) == None;
      assert Walk([], None) == ([], None);
      assert [(t, FirstField(d))] + [] == [(t, d)];
    }
    assert FillAll([(t, d)]) == [Fill(t, d)] by {
      assert [(t, d)][..0] == [];
    }
  }

  /** DEBUG's argument v, decoded: the one TLV of the format, holding v as a u8, nothing left over. */
  lemma DebugValidate(cmd: Cmd, v: nat)
    requires DebugLike(cmd) && v <= ULongMax
    ensures ValidateSpec(0, IntToDecimal(v), cmd.fmt) == (Ok, [DecodeNumber(Flag, IntToDecimal(v))])
  {
    var d := IntToDecimal(v);
    assert ',' !in d by {
      assert forall j :: 0 <= j < |d| ==> IsDigit(d[j]);
    }
    OneTokenFormat(cmd.fmt, Flag, d);
  }

  /**
   * DEBUG with one decoded u8: a value that passed the check (decoded, or empty) answers OK and
   * sets the flag to the value being non-zero; anything else answers ERR:5 and keeps the flag.
   */
  lemma DebugCall(cmds: seq<Cmd>, cmd: Cmd, debug: bool, ch: nat, r: Tlv)
    requires cmd.handler.Debug? && cmd.paramNum == 1 && r.kind == U8
    ensures Call(cmds, cmd, Exec, [r], ch, false, debug)
         == if r.status == Ok || r.status == EmptyData then ([Okay], r.Num() != 0)
            else ([Crlf + "ERR:5" + Crlf], debug)
  {
    assert [r][0] == r;
    if r.status == Ok || r.status == EmptyData {
      assert ArgsVerdict(1, [r]) == (NoError, 1);
      var p := Param(Exec, NoError, 1, [r], ch, cmd.name, 0);
      assert RunHandler(cmds, cmd.handler, p, debug) == (Verdict(NoError, 0, []), r.Num() != 0);
      OkayFrames(cmd.name);
      assert [] + StatusFrames(NoError, cmd.name, 0) == [Okay];
    } else {
      assert ArgsVerdict(1, [r]) == (WrongArguTypeOrRange, 1);
      var p := Param(Exec, WrongArguTypeOrRange, 1, [r], ch, cmd.name, 0);
      assert RunHandler(cmds, cmd.handler, p, debug) == (Verdict(WrongArguTypeOrRange, 0, []), debug);
      StatusText(WrongArguTypeOrRange, cmd.name, 0);
      assert "ERR:" + NatToDecimal(WrongArguTypeOrRange.Code()) == "ERR:5";
      assert [] + StatusFrames(WrongArguTypeOrRange, cmd.name, 0) == [Crlf + "ERR:5" + Crlf];
    }
  }

  /**
   * DEBUG=v: a value whose low byte is 0 or 1 is accepted with OK and sets the debug flag to
   * that byte being 1; any other value is out of range, ERR:5, the flag unchanged.
   */
  lemma DebugSets(cmds: seq<Cmd>, cmd: Cmd, debug: bool, ch: nat, v: nat)
    requires DebugLike(cmd) && v <= ULongMax
    ensures Command(cmds, cmd, debug, ch, cmd.name + "=" + IntToDecimal(v))
         == if v % 0x100 <= 1 then Outcome(true, [Okay], v % 0x100 == 1)
            else Outcome(true, [Crlf + "ERR:5" + Crlf], debug)
  {
    var d := IntToDecimal(v);
    assert d != [] && d != "?";
    ExecForm(cmds, cmd, debug, ch, '=', d);
    assert cmd.name + "=" + d == cmd.name + ['='] + d;
    DebugValidate(cmd, v);
    UnsignedWraps(Flag, v);
    DebugCall(cmds, cmd, debug, ch, DecodeNumber(Flag, d));
  }

  /** "DEBUG=v" resolves to the registered DEBUG command. */
  lemma DebugResolves(cmds: seq<Cmd>, i: nat, debug: bool, ch: nat, v: nat)
    requires Sorted(cmds) && i < |cmds| && cmds[i].name == "DEBUG"
    ensures Process(cmds, Direct, debug, ch, "DEBUG=" + IntToDecimal(v))
         == Command(cmds, cmds[i], debug, ch, cmds[i].name + "=" + IntToDecimal(v))
  {
    var s := "DEBUG=" + IntToDecimal(v);
    CandidateOfSuffix(cmds[i].name, "=" + IntToDecimal(v));
    assert s == cmds[i].name + ("=" + IntToDecimal(v)) == cmds[i].name + "=" + IntToDecimal(v);
    NameResolves(cmds, Direct, debug, ch, s, i);
  }

  /** At the level of received text: "DEBUG=v" reaches the registered DEBUG command. */
  lemma DebugReceived(cmds: seq<Cmd>, i: nat, debug: bool, ch: nat, v: nat)
    requires Sorted(cmds) && i < |cmds| && DebugLike(cmds[i]) && v <= ULongMax
    ensures Process(cmds, Direct, debug, ch, "DEBUG=" + IntToDecimal(v))
         == if v % 0x100 <= 1 then Outcome(true, [Okay], v % 0x100 == 1)
            else Outcome(true, [Crlf + "ERR:5" + Crlf], debug)
  {
    DebugResolves(cmds, i, debug, ch, v);
    DebugSets(cmds, cmds[i], debug, ch, v);
  }

  /** LISTCMDS? sends one "+NAME:TEST" frame per command, then OK; the flag is unchanged. */
  lemma ListQuery(cmds: seq<Cmd>, debug: bool, ch: nat)
    ensures Command(cmds, ListCmd, debug, ch, ListCmd.name + "?") == Outcome(true, ListFrames(cmds) + [Okay], debug)
  {
    OkayFrames(ListCmd.name);
  }

  /** Over the UART transport "AT" alone answers OK. */
  lemma UartAttention(cmds: seq<Cmd>, debug: bool, ch: nat)
    ensures Process(cmds, Uart, debug, ch, "AT") == Outcome(true, [Okay], debug)
  {
    UartShortText("AT");
    OkayFrames([]);
  }

  /** Over the UART transport any other text of at most three characters gets ERR:1. */
  lemma UartShortRefused(cmds: seq<Cmd>, debug: bool, ch: nat, data: string)
    requires data != [] && |data| <= |Hdr| && data != "AT"
    ensures Process(cmds, Uart, debug, ch, data) == Outcome(false, [NotSupported], debug)
  {
    UartShortText(data);
    NotSupportedFrames([]);
  }

  /** Over the UART transport a longer text is processed as the text after its first three characters. */
  lemma UartForwards(cmds: seq<Cmd>, debug: bool, ch: nat, header: string, s: string)
    requires |header| == |Hdr| && s != []
    ensures Process(cmds, Uart, debug, ch, header + s) == Process(cmds, Direct, debug, ch, s)
  {
    UartStripsHeader(header, s);
  }
}

=== FILE: registry.dfy ===
/**
 * The command registry: the table of registered commands, kept sorted by name, and the lookup
 * of the command a received text names (at_cmd_is_available).
 */
module Registry {
  import opened Wrappers
  import opened Text
  import opened CmdTypes

  /** strcmp's order on names: the sign of the first differing character, a proper prefix first. */
  function Compare(a: string, b: string): (r: int)
    ensures -1 <= r <= 1
  {
    if a == [] || b == [] then (if a == b then 0 else if a == [] then -1 else 1)
    else if a[0] < b[0] then -1
    else if a[0] > b[0] then 1
    else Compare(a[1..], b[1..])
  }

  /** Names compare equal exactly when they are the same name. */
  lemma {:induction false} CompareZero(a: string, b: string)
    ensures Compare(a, b) == 0 <==> a == b
  {
    if a != [] && b != [] && a[0] == b[0] {
      CompareZero(a[1..], b[1..]);
      if a[1..] == b[1..] {
        assert a == [a[0]] + a[1..] && b == [b[0]] + b[1..];
      }
    }
  }

  /** Swapping the names flips the sign. */
  lemma {:induction false} CompareFlip(a: string, b: string)
    ensures Compare(b, a) == -Compare(a, b)
  {
    if a != [] && b != [] && a[0] == b[0] {
      CompareFlip(a[1..], b[1..]);
    }
  }

  /** The order is transitive. */
  lemma {:induction false} CompareTrans(a: string, b: string, c: string)
    requires Compare(a, b) < 0 && Compare(b, c) < 0
    ensures Compare(a, c) < 0
  {
    if a != [] && b != [] && c != [] && a[0] == b[0] == c[0] {
      CompareTrans(a[1..], b[1..], c[1..]);
    }
  }

  /** strncmp on the first n characters of two strings that both have that many: the sign of the first difference. */
  function Strncmp(a: string, b: string, n: nat): (r: int)
    requires n <= |a| && n <= |b|
    ensures -1 <= r <= 1
    ensures r == 0 <==> a[..n] == b[..n]
  {
    if n == 0 then 0
    else if a[0] != b[0] then (if a[0] < b[0] then -1 else 1)
    else
      assert a[..n] == [a[0]] + a[1..][..n - 1] && b[..n] == [b[0]] + b[1..][..n - 1];
      Strncmp(a[1..], b[1..], n - 1)
  }

  /** strncmp looks at no character past the n-th. */
  lemma {:induction false} StrncmpPrefix(a: string, b: string, n: nat, m: nat)
    requires n <= m <= |a| && n <= |b|
    ensures Strncmp(a[..m], b, n) == Strncmp(a, b, n)
  {
    if n > 0 && a[0] == b[0] {
      assert a[..m][1..] == a[1..][..m - 1];
      StrncmpPrefix(a[1..], b[1..], n - 1, m - 1);
      assert a[..m][0] == a[0];
    }
  }

  /**
   * One probe of the binary search (at_cmd.c:309-318): strncmp over the shorter length, the
   * lengths deciding a tie.  0 is a match, 1 continues above the probed entry, -1 below it.
   */
  function Probe(key: string, name: string): int
  {
    var r := Strncmp(key, name, Min(|key|, |name|));
    if r == 0 && |key| == |name| then 0
    else if (if r != 0 then r > 0 else |key| > |name|) then 1
    else -1
  }

  /** The probe decides as strcmp does. */
  lemma {:induction false} ProbeIsCompare(key: string, name: string)
    ensures Probe(key, name) == Compare(key, name)
  {
    if key != [] && name != [] && key[0] == name[0] {
      ProbeIsCompare(key[1..], name[1..]);
    }
  }

  /** The end of the command name in s: the first '=' or '?', or the end of s. */
  function NameEnd(s: string): (n: nat)
    ensures n <= |s|
    ensures forall j :: 0 <= j < n ==> s[j] != '=' && s[j] != '?'
    ensures n < |s| ==> s[n] == '=' || s[n] == '?'
  {
    match (Find(s, '='), Find(s, '?'))
    case (None, None) => |s|
    case (Some(e), None) => e
    case (None, Some(q)) => q
    case (Some(e), Some(q)) => if q > e then e else q
  }

  /** The name a received text asks for: the text before its first '=' or '?'. */
  function Candidate(s: string): (k: string)
    ensures '=' !in k && '?' !in k && |k| <= |s| && k == s[..|k|]
  {
    s[..NameEnd(s)]
  }

  /** A name followed by nothing, or by a suffix starting with '=' or '?', is its own candidate. */
  lemma CandidateOfSuffix(name: string, suffix: string)
    requires '=' !in name && '?' !in name
    requires suffix == [] || suffix[0] == '=' || suffix[0] == '?'
    ensures Candidate(name + suffix) == name
  {
    assert (name + suffix)[..|name|] == name;
  }

  /** The names strictly increase along the table (the linker sorts the sections by name). */
  predicate Sorted(cmds: seq<Cmd>)
  {
    forall i, j :: 0 <= i < j < |cmds| ==> Compare(cmds[i].name, cmds[j].name) < 0
  }

  /** The reference search: the first entry of the table named key. */
  function Lookup(cmds: seq<Cmd>, key: string): (r: Option<nat>)
    ensures r.Some? ==> r.value < |cmds| && cmds[r.value].name == key
    ensures r.None? <==> forall i :: 0 <= i < |cmds| ==> cmds[i].name != key
  {
    if cmds == [] then None
    else if cmds[0].name == key then Some(0)
    else match Lookup(cmds[1..], key)
      case None => None
      case Some(i) => Some(i + 1)
  }

  /** In a sorted table at most one entry carries a name, so that entry is what the search finds. */
  lemma LookupUnique(cmds: seq<Cmd>, key: string, i: nat)
    requires Sorted(cmds) && i < |cmds| && cmds[i].name == key
    ensures Lookup(cmds, key) == Some(i)
  {
    var j := Lookup(cmds, key).value;
    if j < i {
      CompareZero(cmds[j].name, cmds[i].name);
    } else if i < j {
      CompareZero(cmds[i].name, cmds[j].name);
    }
  }

  /** The entry a received text names: none for an empty candidate, else the entry called so. */
  function Resolve(cmds: seq<Cmd>, s: string): (r: Option<nat>)
    ensures r.Some? <==> Candidate(s) != [] && exists i :: 0 <= i < |cmds| && cmds[i].name == Candidate(s)
    ensures r.Some? ==> r.value < |cmds| && cmds[r.value].name == Candidate(s)
  {
    var key := Candidate(s);
    if key == [] then None else Lookup(cmds, key)
  }

  /** NAME, NAME? and NAME=? name the same command. */
  lemma SuffixesResolveAlike(cmds: seq<Cmd>, name: string)
    requires '=' !in name && '?' !in name
    ensures Resolve(cmds, name + "?") == Resolve(cmds, name + "=?") == Resolve(cmds, name)
  {
    CandidateOfSuffix(name, "?");
    CandidateOfSuffix(name, "=?");
    CandidateOfSuffix(name, []);
    assert name + [] == name;
  }

  /**
   * at_cmd_is_available: the binary search over the sorted table between upper (inclusive) and
   * bottom (exclusive), comparing the candidate with the probed name.
   */
  method IsAvailable(cmds: seq<Cmd>, s: string) returns (r: Option<nat>)
    requires Sorted(cmds)
    ensures r == Resolve(cmds, s)
  {
    if s == [] {
      return None;
    }
    var len := NameEnd(s);
    if len == 0 {
      return None;
    }
    ghost var key := Candidate(s);
    var bottom := |cmds|;
    var upper := 0;
    while upper < bottom
      invariant 0 <= upper <= bottom <= |cmds|
      invariant forall i :: 0 <= i < upper ==> Compare(cmds[i].name, key) < 0
      invariant forall i :: bottom <= i < |cmds| ==> Compare(key, cmds[i].name) < 0
    {
      var middle := (upper + bottom) / 2;
      var name := cmds[middle].name;
      var result := Strncmp(s, name, Min(len, |name|));
      assert Probe(key, name) == if result == 0 && len == |name| then 0 else if (if result != 0 then result > 0 else len > |name|) then 1 else -1 by {
        StrncmpPrefix(s, name, Min(len, |name|), len);
      }
      ProbeIsCompare(key, name);
      if result == 0 && len == |name| {
        CompareZero(key, name);
        LookupUnique(cmds, key, middle);
        return Some(middle);
      } else if (if result != 0 then result > 0 else len > |name|) {
        CompareFlip(key, name);
        forall i | 0 <= i <= middle
          ensures Compare(cmds[i].name, key) < 0
        {
          if i < middle {
            CompareTrans(cmds[i].name, name, key);
          }
        }
        upper := middle + 1;
      } else {
        forall i | middle <= i < |cmds|
          ensures Compare(key, cmds[i].name) < 0
        {
          if middle < i {
            CompareTrans(key, name, cmds[i].name);
          }
        }
        bottom := middle;
      }
    }
    forall i | 0 <= i < |cmds|
      ensures cmds[i].name != key
    {
      CompareZero(cmds[i].name, key);
      CompareZero(key, cmds[i].name);
    }
    return None;
  }
}

=== FILE: text.dfy ===
/** Character searches of the C library as the AT engine uses them (strchr and friends). */
module Text {
  import opened Wrappers

  /** ATM_MIN. */
  function Min(a: int, b: int): int { if a < b then a else b }

  /** strchr: the index of the first occurrence of c in s, if any. */
  function Find(s: string, c: char): (r: Option<nat>)
    ensures r.Some? ==> r.value < |s| && s[r.value] == c
    ensures r.Some? ==> forall j :: 0 <= j < r.value ==> s[j] != c
    ensures r.None? <==> c !in s
  {
    if s == [] then None
    else if s[0] == c then Some(0)
    else match Find(s[1..], c)
      case None => None
      case Some(i) => Some(i + 1)
  }

  /** The text of s before its first comma, or all of s. */
  function FirstField(s: string): (f: string)
    ensures ',' !in f
    ensures |f| <= |s| && f == s[..|f|]
    ensures |f| < |s| ==> s[|f|] == ','
  {
    match Find(s, ',')
    case Some(i) => s[..i]
    case None => s
  }

  /** The comma-separated fields of s, empty ones included; the empty string has one empty field. */
  function Fields(s: string): (fs: seq<string>)
    ensures |fs| >= 1 && fs[0] == FirstField(s)
    decreases |s|
  {
    match Find(s, ',')
    case Some(i) => [s[..i]] + Fields(s[i + 1..])
    case None => [s]
  }

  /** The fields joined back with commas between them. */
  function Join(fs: seq<string>): string
    requires |fs| >= 1
  {
    if |fs| == 1 then fs[0] else fs[0] + [','] + Join(fs[1..])
  }

  /** Splitting at the commas loses nothing: joining the fields gives s back. */
  lemma {:induction false} FieldsJoin(s: string)
    ensures Join(Fields(s)) == s
    decreases |s|
  {
    match Find(s, ',')
    case None =>
    case Some(i) =>
      var rest := s[i + 1..];
      assert Fields(s) == [s[..i]] + Fields(rest);
      assert Join(Fields(s)) == s[..i] + [','] + Join(Fields(rest)) by {
        assert Fields(s)[1..] == Fields(rest);
      }
      FieldsJoin(rest);
      assert s == s[..i] + [','] + rest;
  }

  /** No field holds a comma. */
  lemma {:induction false} FieldsHaveNoComma(s: string, j: nat)
    requires j < |Fields(s)|
    ensures ',' !in Fields(s)[j]
    decreases |s|
  {
    match Find(s, ',')
    case None =>
    case Some(i) =>
      var rest := s[i + 1..];
      assert Fields(s) == [s[..i]] + Fields(rest);
      if j > 0 {
        FieldsHaveNoComma(rest, j - 1);
        assert Fields(s)[j] == Fields(rest)[j - 1];
      }
  }

  /** The fields of a format string as strtok_r returns them: the empty ones are skipped. */
  function NonEmpty(fs: seq<string>): (ts: seq<string>)
    ensures forall i :: 0 <= i < |ts| ==> ts[i] != [] && ts[i] in fs
    ensures |ts| <= |fs|
  {
    if fs == [] then []
    else if fs[0] == [] then NonEmpty(fs[1..])
    else [fs[0]] + NonEmpty(fs[1..])
  }
}

=== FILE: wrappers.dfy ===
/** Optional values: a C pointer that may be NULL, an index that may be absent. */
module Wrappers {

  datatype Option<+T> = None | Some(value: T)
}
